=== FILE: README.md ===
# Foodgram core in Dafny

A model of the core of the foodgram recipe service (a Django REST backend):

- the **relation toggles**: adding and deleting a user's favorites row or
  shopping-cart row for a recipe, with the 201 / 204 / 404 / 400 outcomes;
- the **recipe aggregate writes**: `create` and `update` of the recipe
  serializer, which insert the recipe row, set its tags and build one
  ingredient-quantity row per input item, or rewrite the fields, delete the
  old rows and rebuild them;
- the **shopping list**: the rows of every recipe in a user's cart, grouped
  by (ingredient name, measurement unit) with the amounts summed;
- the **follow graph**: following and unfollowing an author, the
  subscriptions listing, and the author's recipe listing cut by
  `recipes_limit`;
- the **access rules**: the moderator and admin checks of the user model
  (the admin check sets the staff flag when it is read), the ban on the
  username "me", and the four permission classes;
- the **CSV import command**: one row to a field dict, the count of imported
  rows, and the Russian noun form of the report message.

The database is one `Database.Store` object whose fields are the tables.
The favorites, shopping-cart and follow tables are sequences of rows, since
the models declare no uniqueness constraint; that no row repeats is an
invariant (`Store.Valid`) kept only by the check each view makes before it
inserts. Every view that writes one of these three relation tables is a
method on the store and is specified by a pure step function
(`Views.AddStep`, `Views.DeleteStep`, `Views.FollowStep`,
`Views.UnfollowStep`) on the table it changes; the round-trip and "second
call fails" lemmas are stated about those functions. The recipe writes
(`Serializers.Create`, `Serializers.Update`) are methods whose contracts
state the new recipe and rows directly, through `Serializers.Built`,
`Serializers.Accepted` and `Serializers.Patched`; `Views.PerformCreate`
only fixes the author.

Files: `common.dfy` (ids, errors, replies, HTTP status), `tables.dfy`
(rows of a table without a uniqueness constraint), `recipe_models.dfy`,
`user_models.dfy`, `database.dfy` (the store and its invariant),
`serializers.dfy`, `views.dfy`, `shopping_list.dfy`, `permissions.dfy`,
`import_csv.dfy`.

The model follows the code where it departs from the intended design:

- A duplicate add raises a `ValidationError` ("Object exists.", "This author
  is followed."); there is no separate conflict error.
- Neither create nor update runs in a transaction. An amount below 0 or
  above 2147483647 passes the serializer (its integer field has neither a
  minimum nor a maximum) and is refused by the database (the quantity column
  is a positive-integer column: a signed 32-bit column with a non-negative
  check, so 0 is accepted; `RecipeModels.MaxAmount`). The rows made before the refused item stay; `create` keeps the
  recipe row and its tags; `update` keeps the new fields and has already
  deleted the old rows, but keeps the old tags because the tags are set after
  the loop.
- Duplicate ingredient ids in one recipe input are not rejected; each item
  gives its own row.
- The import report uses the noun form as written, so 11 saved rows are
  reported in the singular (see Findings); `ImportCsv.MessageIntended` is the
  message with the intended form.
- An update with `partial=True` (PATCH) writes only the plain fields the
  request carries, but pops the ingredient items and the tags
  unconditionally, so leaving either out fails with a `KeyError` before
  anything is written.
- Reading `is_admin_or_superuser` sets the staff flag for admins and
  superusers, and the model keeps that write.
- `get_recipes` and `get_recipes_count` are written inside the `Meta` class
  of the subscriptions serializer, where the framework never calls them. The
  model states what they compute as if they were serializer methods.
- Several names in the views and serializers do not match the models (the
  `recipe`/`recipie`, `amount`/`quantity`, `tag`/`tags`, `user`/`author`
  field names, and `add_recipe` being called with one argument too many).
  The model follows the evident intent: the lookups filter on the recipe and
  the user, and the rows carry the ingredient and the amount.
- The user model declares no `role` field (only the role constants and
  `ALLOWED_ROLES`, users/models.py:9-17), yet `is_moderator` and
  `is_admin_or_superuser` read `self.role`. The model gives the user a
  `role` column holding one of the three roles.
- The write serializer declares `ingredients = AddIngredientsSerializer()`
  without `many=True`, so it would accept one {id, amount} object, while
  `create` iterates over a list of them. It also pops `'ingredient'` and
  calls `recipie.ingredient.add`, where the field and the many-to-many are
  named `ingredients`. The model takes the input as a list of items and
  attaches each row to the recipe's `ingredients`.
- `delete_recipe(self, model, pk)` is called with three arguments, like
  `add_recipe`, and `FollowingView.delete(self, pk)` has no `request`
  parameter. The model takes the requesting user and the key as the
  evidently intended arguments.
- `SubscribeSerializer` is declared inside `SubscriptionsSerializer`, so the
  follow view cannot reach it by that name. The model applies its
  `validate` to the follow edge, as the view evidently intends.
- The recipe columns are named `picture`, `description` and `timing`, while
  the serializers use `image`, `text` and `cooking_time`. The model uses the
  serializers' names for those columns.

## Model

| member | source | states |
|---|---|---|
| Common.Status | backend/foodgram/api/views.py:75-89 | a successful add or follow answers 201 and a delete 204; not found answers 404, a validation error 400, and every other error 500 |
| Tables.Contains | backend/foodgram/api/views.py:78 | the `.exists()` scan is true exactly when the row is in the table |
| Tables.Remove | backend/foodgram/api/views.py:87-88 | deleting a row removes one occurrence of it and nothing else (as a multiset), and leaves the table unchanged when it is absent |
| Tables.RemoveAppended | backend/foodgram/api/views.py:75-89 | appending a new row and deleting it gives back the table |
| Tables.DistinctAppend | backend/foodgram/api/views.py:78-80 | inserting a row that is not present keeps the table free of repeats |
| Tables.DistinctRemove | backend/foodgram/api/views.py:87-88 | deleting a row keeps the table free of repeats, and the row is gone afterwards |
| Tables.DistinctCount | backend/foodgram/api/views.py:87 | in a table without repeats a row occurs at most once, so the single-row lookup cannot find several |
| RecipeModels.ValidEntry | backend/foodgram/food_recipies/models.py:13-15 | a row must name an existing ingredient, and then the quantity column accepts exactly the amounts from 0 to 2147483647, the range of a positive-integer column |
| RecipeModels.UniqueSlugs | backend/foodgram/food_recipies/models.py:21 | no two tags share a slug: tags with equal slugs are the same tag |
| RecipeModels.ValidRecipe | backend/foodgram/food_recipies/models.py:29-31 | the cooking time is at least 1 and every tag of the recipe is an existing tag |
| RecipeModels.InsertByDate | backend/foodgram/food_recipies/models.py:34-35 | inserting a recipe into a newest-first listing gives a newest-first permutation of the listing plus the recipe |
| RecipeModels.OrderByNewest | backend/foodgram/food_recipies/models.py:34-35 | the default ordering is a newest-first permutation of the recipes |
| UserModels.StaffAfterRead | backend/foodgram/users/models.py:29-33 | after a read the staff flag is set for an admin or superuser and unchanged for anyone else |
| UserModels.ReadIsIdempotent | backend/foodgram/users/models.py:29-33 | a second read of the admin check changes the staff flag no further |
| UserModels.User.IsModerator | backend/foodgram/users/models.py:25-27 | a user is a moderator exactly when the role is the moderator role |
| UserModels.User.IsAdminOrSuperuser | backend/foodgram/users/models.py:29-33 | true for every admin and superuser, setting the staff flag; otherwise answers the existing staff flag and changes nothing |
| UserModels.CleanFields | backend/foodgram/users/models.py:35-38 | the framework's own field validation runs first and its error is returned unchanged; once it passes, exactly the username "me" is refused, with a validation error |
| Database.AttachFresh | backend/foodgram/api/serializers.py:114-118 | creating a fresh ingredient-quantity row and attaching it to a recipe keeps the rows valid, existing and owned by one recipe |
| Database.DetachAll | backend/foodgram/api/serializers.py:125 | deleting every row a recipe lists keeps the other recipes' rows in place and the store consistent |
| Database.GrownStep | backend/foodgram/api/serializers.py:114-118 | adding one more row under a fresh key and listing it keeps the rows before unchanged, every added key at or above the first fresh key, and no added row unlisted |
| Database.ShrunkThenGrown | backend/foodgram/api/serializers.py:125-131 | deleting a recipe's rows and then adding rows under fresh keys never brings a deleted row back or relists it, and every other row stays as it was |
| Serializers.ValidateUsername | backend/foodgram/api/serializers.py:31-36 | "me" is refused with a validation error; any other name is passed through unchanged |
| Serializers.HasRow | backend/foodgram/api/serializers.py:79-91 | the favorited and in-cart flags are true exactly when the requester is signed in and has a row for the recipe in that table; false for the anonymous user |
| Serializers.Patched | backend/foodgram/api/serializers.py:124 | each plain field the data carries is written and each absent one keeps its stored value; author, rows and tags are untouched and the publication date becomes the save time |
| Serializers.PatchKeepsValid | backend/foodgram/api/serializers.py:124 | a patch whose cooking time, when present, is at least 1 keeps a valid recipe valid, and applying it twice is applying it once |
| Serializers.Built | backend/foodgram/api/serializers.py:114-118 | one ingredient-quantity row per input item, in input order, carrying its ingredient and amount |
| Serializers.Accepted | backend/foodgram/food_recipies/models.py:15 | the items stored are those before the first amount outside 0..2147483647, every one of them inside that range, and the item after them outside it |
| Serializers.AcceptedAtTheBounds | backend/foodgram/food_recipies/models.py:15 | the amount 2147483647 is stored and 2147483648 is refused; a refused item stops the items after it |
| Serializers.AttachOne | backend/foodgram/api/serializers.py:115-118 | one loop turn adds exactly the new row to the rows table under a fresh key and appends it to the recipe's rows; nothing else changes |
| Serializers.AttachEntries | backend/foodgram/api/serializers.py:114-118 | the recipe's rows grow by the rows built from the accepted items; it succeeds exactly when every amount is accepted; the rows table gains exactly the rows the recipe now lists, existing rows and other recipes unchanged |
| Serializers.AttachItem | backend/foodgram/api/serializers.py:115-118 | one loop turn extends the rows attached so far by the row of the next item, and the rows table still holds only the earlier rows and the recipe's |
| Serializers.Create | backend/foodgram/api/serializers.py:108-119 | a new recipe with the given author, fields and tags under the next key; its rows are those built from the accepted items, and the rows table gains exactly those; success exactly when all items are accepted, otherwise an integrity error with the recipe kept |
| Serializers.InsertRecipe | backend/foodgram/api/serializers.py:112 | the recipe row is added under the next key and nothing else changes |
| Serializers.InsertTagged | backend/foodgram/api/serializers.py:112-113 | the recipe row is added under the next key with its tag set and no ingredient rows |
| Serializers.SetTags | backend/foodgram/api/serializers.py:113 | the recipe's tag set becomes exactly the given set and its rows are unchanged |
| Serializers.WriteFields | backend/foodgram/api/serializers.py:124 | the recipe becomes its patched version: the fields the data carries are written, absent ones kept, and the publication date is the save time |
| Serializers.DeleteEntries | backend/foodgram/api/serializers.py:125 | every row the recipe lists is deleted along with its links; other rows stay |
| Serializers.Rewrite | backend/foodgram/api/serializers.py:124-125 | the recipe is patched and its rows deleted, the old row keys gone from the rows table |
| Serializers.Refill | backend/foodgram/api/serializers.py:127-132 | the new rows are attached, the rows table gains exactly the rows the recipe now lists, and the tags are replaced only when every item was accepted |
| Serializers.Update | backend/foodgram/api/serializers.py:121-133 | data without ingredient items or without tags fails with a key error and changes nothing; otherwise the outcome of Serializers.Replace, and other recipes are unchanged either way |
| Serializers.Replace | backend/foodgram/api/serializers.py:124-133 | the old rows are all gone and the rows table holds the other rows plus exactly the recipe's new rows, built from the accepted items; the fields the data carries are written and the others kept; the tags are the input's on success and the old ones on an integrity error |
| Serializers.Authored | backend/foodgram/api/serializers.py:171 | the author's recipes are exactly the rows of the table whose author it is, with their multiplicities |
| Serializers.GetRecipesCount | backend/foodgram/api/serializers.py:185-186 | the count never exceeds the number of recipes |
| Serializers.CountIsListingLength | backend/foodgram/api/serializers.py:168-186 | the count equals the number of recipes in the author's listing |
| Serializers.PrefixKeepsOrder | backend/foodgram/api/serializers.py:172-175 | a cut of the listing is a newest-first prefix of the author's recipes and nothing left out is newer |
| Serializers.AuthorListing | backend/foodgram/api/serializers.py:171 | the author's recipes newest first: a permutation of them, all by the author |
| Serializers.GetRecipes | backend/foodgram/api/serializers.py:168-183 | a negative limit fails; otherwise the result is the prefix of the newest-first listing of length min(limit, count), or the whole listing without a limit |
| Serializers.ListingWithinCount | backend/foodgram/api/serializers.py:168-186 | the listing never holds more recipes than the count, and exactly the count without a limit |
| Serializers.ValidateSubscribe | backend/foodgram/api/serializers.py:193-204 | following oneself is refused with "You cant follow user." and following twice with "This author is followed.", both validation errors; otherwise the edge is accepted |
| ShoppingList.Merge | backend/foodgram/api/views.py:69-72 | adding a row to a grouped list adds its amount to its key alone and keeps the keys distinct |
| ShoppingList.GroupInto | backend/foodgram/api/views.py:69-72 | grouping rows into a list adds each key's total and keeps the keys distinct |
| ShoppingList.GroupSum | backend/foodgram/api/views.py:69-72 | one line per distinct (name, unit) among the rows, each carrying the sum of their amounts; no rows give no lines |
| ShoppingList.LineIsLookup | backend/foodgram/api/views.py:69-72 | in a grouped list a line's amount is the amount its key looks up |
| ShoppingList.EachLineIsTotal | backend/foodgram/api/views.py:69-72 | every line of the shopping list carries the total of all rows with its name and unit |
| ShoppingList.RecipeLines | backend/foodgram/api/views.py:69-70 | a recipe contributes at most one row per row it lists, and exactly one per listed row when every listed row and its ingredient exist |
| ShoppingList.CartLines | backend/foodgram/api/views.py:69-70 | a user without shopping-cart rows contributes no rows |
| ShoppingList.DownloadShoppingCart | backend/foodgram/api/views.py:67-73 | the list repeats no (name, unit) key and each key looks up the sum of the amounts of the user's cart rows with that key |
| ShoppingList.ShoppingListIsGroupedSum | backend/foodgram/api/views.py:67-73 | the shopping list has distinct keys, exactly the keys of the cart rows, each with its total, and is empty for an empty cart |
| ShoppingList.FlourAndSugar | backend/foodgram/api/views.py:69-72 | 200 g and 300 g of flour and 50 g of sugar give 500 g of flour and 50 g of sugar |
| Views.AddStep | backend/foodgram/api/views.py:75-82 | unknown recipe: not found; existing row: "Object exists."; otherwise exactly one row appended and 201 with the recipe summary |
| Views.DeleteStep | backend/foodgram/api/views.py:84-89 | unknown recipe or missing row: not found, table unchanged; a single row: deleted and 204 |
| Views.AddThenDeleteRestores | backend/foodgram/api/views.py:75-89 | a successful add followed by a delete gives back the table and answers 204 |
| Views.SecondAddFails | backend/foodgram/api/views.py:78-79 | adding the same row twice: the second add is refused and changes nothing |
| Views.SecondDeleteFails | backend/foodgram/api/views.py:85-87 | deleting the same row twice: the second delete is not found |
| Views.StepsKeepDistinct | backend/foodgram/api/views.py:75-89 | neither step creates a repeated row |
| Views.DeletePresentSucceeds | backend/foodgram/api/views.py:87 | in a table without repeats deleting a present row of an existing recipe succeeds |
| Views.FlagFollowsToggle | backend/foodgram/api/views.py:75-89 | after a successful add the requester's flag for the recipe is set, after a successful delete it is clear, and a refused add leaves it as it was |
| Views.AddRecipe | backend/foodgram/api/views.py:75-82 | the named relation table becomes what the add step gives and the other table is unchanged |
| Views.DeleteRecipe | backend/foodgram/api/views.py:84-89 | the named relation table becomes what the delete step gives, the only failure is not found, and the other table is unchanged |
| Views.FavoriteAction | backend/foodgram/api/views.py:51-57 | called only for POST and DELETE, the methods the action is routed for: POST adds a favorites row as `AddStep` says, DELETE deletes one as `DeleteStep` says; the shopping cart is unchanged |
| Views.ShoppingCartAction | backend/foodgram/api/views.py:59-65 | called only for POST and DELETE, the methods the action is routed for: POST adds a shopping-cart row as `AddStep` says, DELETE deletes one as `DeleteStep` says; the favorites are unchanged |
| Views.GetSerializerClass | backend/foodgram/api/views.py:42-45 | the read serializer exactly for list and retrieve, the write serializer otherwise |
| Views.PerformCreate | backend/foodgram/api/views.py:47-49 | the new recipe's author is the requesting user |
| Views.Following | backend/foodgram/api/views.py:143 | exactly the follow rows whose follower is the user, each as many times as the table holds it |
| Views.Subscriptions | backend/foodgram/api/views.py:140-145 | 400 with "None" exactly when the user follows nobody, otherwise the user's follow rows, each as many times as the table holds it |
| Views.FollowStep | backend/foodgram/api/views.py:165-175 | unknown author: not found; oneself: "You cant follow user."; an existing edge: "This author is followed."; on refusal the table is unchanged; otherwise exactly one edge appended and 201 |
| Views.UnfollowStep | backend/foodgram/api/views.py:177-184 | unknown author or missing edge: not found, table unchanged; a single edge: deleted and 204 |
| Views.FollowThenUnfollowRestores | backend/foodgram/api/views.py:165-184 | following and then unfollowing gives back the follow table |
| Views.FollowKeepsTableSound | backend/foodgram/api/views.py:165-184 | following and unfollowing create no repeated edge, and following creates no self-edge |
| Views.Follow | backend/foodgram/api/views.py:165-175 | the follow table becomes what the follow step gives and nothing else changes |
| Views.Unfollow | backend/foodgram/api/views.py:177-184 | the follow table becomes what the unfollow step gives and the only failure is not found |
| Permissions.UserIsAdmin | backend/foodgram/api/permissions.py:4-8 | allowed exactly for a signed-in admin, superuser or staff member; the admin check is read (and may set the staff flag) only for a signed-in user |
| Permissions.AdminModeratorAuthorPermission | backend/foodgram/api/permissions.py:11-21 | safe methods pass without reading anything; other methods pass exactly for a signed-in admin, superuser, staff member, moderator or author, after the admin check has been read |
| Permissions.UserIsAdminAllows | backend/foodgram/api/permissions.py:4-8 | the anonymous user is refused; a signed-in user passes exactly as an admin, superuser or staff member |
| Permissions.AdminModeratorAuthorAllows | backend/foodgram/api/permissions.py:11-21 | safe methods pass and the anonymous user passes only them; a signed-in author, moderator, admin, superuser or staff member passes; a plain user without the staff flag passes a write exactly as the author |
| Permissions.ReadOnly | backend/foodgram/api/permissions.py:24-26 | GET, HEAD and OPTIONS pass and every other method is refused |
| Permissions.IsOwnerOrReadOnly | backend/foodgram/api/permissions.py:29-32 | safe methods pass; a write passes exactly for the signed-in author of the object |
| Permissions.StaffWriteKeepsAnswer | backend/foodgram/users/models.py:29-33 | the staff flag a read writes equals the answer, and the next read answers the same |
| Permissions.AnonymousOnlyReads | backend/foodgram/api/permissions.py:4-32 | ReadOnly passes exactly the safe methods; the anonymous user passes the object checks exactly for safe methods and never passes UserIsAdmin |
| Permissions.OwnerCheckIsStricter | backend/foodgram/api/permissions.py:11-32 | whatever the owner check allows the admin/moderator/author check allows, and so does every admin |
| Permissions.PlainUserRefused | backend/foodgram/api/permissions.py:11-32 | a plain user who is not the author cannot write under either object check |
| ImportCsv.FormAsWritten | backend/foodgram/food_recipies/management/commands/import_csv.py:41-50 | as written: 0 gives none updated; every count ending in 1 gets the singular, 11 and 111 included; the paucal exactly for a last digit 2-4 outside 12-14 |
| ImportCsv.ElevenAsWritten | backend/foodgram/food_recipies/management/commands/import_csv.py:43-44 | 11 saved rows are reported as "обновлен 11 объект!" where the intended message is "обновлено 11 объектов!" |
| ImportCsv.Form | backend/foodgram/food_recipies/management/commands/import_csv.py:41-50 | 0 gives none updated; the singular exactly for a last digit 1 outside 11; the paucal exactly for a last digit 2-4 outside 12-14; the plural for every other positive count |
| ImportCsv.FormsDiffer | backend/foodgram/food_recipies/management/commands/import_csv.py:41-50 | the selection as written and the corrected one differ exactly on counts whose last two digits are 11 |
| ImportCsv.Decimal | backend/foodgram/food_recipies/management/commands/import_csv.py:44 | the count is rendered as a non-empty string of decimal digits, without a leading zero when it has more than one digit |
| ImportCsv.DecimalRoundTrip | backend/foodgram/food_recipies/management/commands/import_csv.py:44 | reading the rendered count back gives the count |
| ImportCsv.Message | backend/foodgram/food_recipies/management/commands/import_csv.py:41-50 | the message as written, with N the decimal count: 0 gives "нет обновленных объектов!"; a count ending in 1, teens included, "обновлен N объект!"; a last digit 2-4 outside 12-14 "обновлено N объекта!"; every other count "обновлено N объектов!" |
| ImportCsv.MessageIntended | backend/foodgram/food_recipies/management/commands/import_csv.py:41-50 | the intended message: as above, except that counts ending in 11 take "обновлено N объектов!" |
| ImportCsv.WordingDistinguishes | backend/foodgram/food_recipies/management/commands/import_csv.py:41-50 | different noun forms give different messages for the same count |
| ImportCsv.MessagesDiffer | backend/foodgram/food_recipies/management/commands/import_csv.py:41-50 | the message as written and the intended one differ exactly on counts whose last two digits are 11 |
| ImportCsv.SampleMessages | backend/foodgram/food_recipies/management/commands/import_csv.py:41-50 | 0, 1, 3 and 12 give the none, singular, paucal and plural messages |
| ImportCsv.FieldsUpTo | backend/foodgram/food_recipies/management/commands/import_csv.py:29-37 | a row fails only with a missing cell or an unknown field |
| ImportCsv.FieldsOk | backend/foodgram/food_recipies/management/commands/import_csv.py:29-37 | a row converts exactly when it has a cell under every header and every non-empty cell is under a field name |
| ImportCsv.FieldsKeys | backend/foodgram/food_recipies/management/commands/import_csv.py:29-37 | the dict's keys are exactly the headers of the non-empty cells; empty cells are left out |
| ImportCsv.FieldsValues | backend/foodgram/food_recipies/management/commands/import_csv.py:29-37 | each key holds the value of its last non-empty cell |
| ImportCsv.FailureSticks | backend/foodgram/food_recipies/management/commands/import_csv.py:30-36 | once a cell fails the row fails with that error |
| ImportCsv.DistinctHeadersKeepEveryCell | backend/foodgram/food_recipies/management/commands/import_csv.py:29-37 | with distinct headers every non-empty cell is stored under its header and no empty cell is |
| ImportCsv.RowToFields | backend/foodgram/food_recipies/management/commands/import_csv.py:29-37 | the cell loop computes the row's field dict or its first error |
| ImportCsv.Converted | backend/foodgram/food_recipies/management/commands/import_csv.py:27-39 | the rows before the first failing row all convert, and the row after them fails |
| ImportCsv.Saved | backend/foodgram/food_recipies/management/commands/import_csv.py:27-42 | the rows saved all convert and are taken by the database, they are no more than the rows that convert, and the row after them fails to convert or is refused on save |
| ImportCsv.SavedWhenEveryObjectSaves | backend/foodgram/food_recipies/management/commands/import_csv.py:41-42 | when the database takes every object, the rows saved are exactly the rows that convert |
| ImportCsv.Import | backend/foodgram/food_recipies/management/commands/import_csv.py:24-50 | an empty file fails; otherwise the rows before the first row that fails to convert or to save are saved in order as their field dicts; the command stops with that row's conversion error, or a DataError when `save()` refuses it; when every row is saved the message reports the number of data rows |
| ImportCsv.CountIsDataRows | backend/foodgram/food_recipies/management/commands/import_csv.py:26-28 | a file of well-formed rows whose objects the database all takes is saved whole, and the count is the number of rows after the header |

## Left out

- PDF rendering of the shopping list: a call into a rendering library. The model ends at the grouped list (`ShoppingList.DownloadShoppingCart`).
- Pagination of the recipe and subscription listings, URL routing, admin registration, the viewset mixins and the search filters: framework mechanics.
- Base64 image decoding, token login and logout, and `set_password` with its hashing: library calls. The image is a plain string.
- Opening and reading the CSV file and writing the report to standard output: I/O. `ImportCsv.Import` takes the parsed rows and returns the message; the file path and model name that prefix the printed line are not modelled.
- The CSV import's lookup of related rows for relation fields: the ingredient model has no relation field among `id`, `name` and `measurement_unit`, so that branch never runs here; reverse-relation names that the model's field lookup would also accept are not modelled.
- Saving an imported object writes it to the database. The model returns the saved field dicts instead of a table. Whether `save()` takes an object (a non-numeric `id` raises ValueError, and an over-long `name` raises DataError on PostgreSQL) is the parameter `accepts` of `ImportCsv.Import`, not a model of the database's conversions.
- The `int()` parse of the `recipes_limit` query parameter (and its failure on a non-number): `Serializers.GetRecipes` takes the parsed integer, or none when the parameter is absent.
- The full response bodies of the read serializers (nested author, tags and ingredients): only the fields the core decides are modelled.
- Concurrency and atomicity: the code has no transaction and no uniqueness constraint; the model is sequential and shows the partial state a failed write leaves.
- Request authentication: the views that require a signed-in user are given that user's key; the permission classes take the anonymous user as a null user.
- Serializers.GetRecipesCount: the code counts by `obj.author` on the serialized object; the model counts the recipes of the given author.
- Database row keys: new rows take the next unused key; the database's own key allocation is not modelled.

## Findings

| source | as written | input that shows it | evidently intended | confidence | as-written member | corrected member |
|---|---|---|---|---|---|---|
| backend/foodgram/food_recipies/management/commands/import_csv.py:43 | the singular test is `count % 10 == 1 and count % 100`, and `count % 100` is never 0 when the last digit is 1 | a count of 11 (or 111, 211, ...) gives "обновлен 11 объект!" | the teens take the plural: `count % 100 != 11`, giving "обновлено 11 объектов!" | not executed; high, since the paucal branch excludes its teens 12-14 in the same way | ImportCsv.ElevenAsWritten | ImportCsv.MessageIntended |

=== FILE: common.dfy ===
/** Identifiers, error kinds and HTTP replies shared by the whole model. */
module Common {

  type UserId = nat
  type RecipeId = nat
  type IngredientId = nat
  type TagId = nat
  /** Primary key of an ingredient-quantity row. */
  type EntryId = nat

  datatype Option<T> = None | Some(value: T)

  /** The exceptions the views and serializers raise (or let escape). */
  datatype Error =
    | NotFound                        // get_object_or_404 found no row
    | ValidationError(message: string) // rest_framework ValidationError
    | IntegrityError                  // the database refused a row (a CHECK constraint)
    | ValueError                      // a query given a value it cannot use (a negative slice bound)
    | MultipleObjectsReturned         // a lookup that expects one row found several
    | IndexError                      // a CSV row shorter than the header row
    | FieldDoesNotExist(field: string) // a CSV header that names no model field
    | StopIteration                   // a CSV file without a header row
    | KeyError                        // a dict lookup or pop of a key the dict does not hold
    | DataError                       // save() refused a value (a non-numeric id, a value too long for its column)

  datatype Result<T> = Ok(value: T) | Err(error: Error)

  datatype HttpMethod = GET | HEAD | OPTIONS | POST | PUT | PATCH | DELETE

  /** rest_framework.permissions.SAFE_METHODS */
  predicate IsSafe(m: HttpMethod) {
    m == GET || m == HEAD || m == OPTIONS
  }

  /** The fields RecipeSerializer renders: id, name, image, cooking_time. */
  datatype RecipeSummary = RecipeSummary(id: RecipeId, name: string, image: string, cookingTime: int)

  /** A follow edge: `user` follows `author`. */
  datatype FollowEdge = FollowEdge(user: UserId, author: UserId)

  /** What a successful request answers with. */
  datatype Reply =
    | Created(summary: RecipeSummary)   // 201 with the recipe summary
    | Subscribed(edge: FollowEdge)      // 201 with the new follow edge
    | NoContent                         // 204

  /** The HTTP status the framework sends for an outcome. */
  function Status(r: Result<Reply>): (code: int)
    ensures r.Ok? ==> (code == 204 <==> r.value.NoContent?)
    ensures r.Err? ==> (code == 404 <==> r.error.NotFound?)
    ensures r.Ok? && !r.value.NoContent? ==> code == 201
    ensures r.Err? && r.error.ValidationError? ==> code == 400
    ensures r.Err? && !r.error.NotFound? && !r.error.ValidationError? ==> code == 500
  {
    match r
    case Ok(Created(_)) => 201
    case Ok(Subscribed(_)) => 201
    case Ok(NoContent) => 204
    case Err(NotFound) => 404
    case Err(ValidationError(_)) => 400
    case Err(_) => 500
  }
}

=== FILE: database.dfy ===
/**
 * The persisted tables the core reads and writes, held by one `Store`
 * object, with the invariant every operation keeps: valid rows, each
 * ingredient-quantity row owned by exactly one recipe, and no repeated row in
 * the relation tables (a property the tables themselves do not enforce).
 */
module Database {
  import opened Common
  import opened Tables
  import opened RecipeModels

  /** Every ingredient-quantity row has a key below the next one to be issued and is valid. */
  predicate EntriesValid(entries: map<EntryId, IngredientEntry>, ingredients: map<IngredientId, Ingredient>, nextEntry: nat) {
    forall e :: e in entries ==> e < nextEntry && ValidEntry(entries[e], ingredients)
  }

  /** Every recipe has a key below the next one to be issued and is valid. */
  predicate RecipesValid(recipes: map<RecipeId, Recipe>, tags: map<TagId, Tag>, nextRecipe: nat) {
    forall k :: k in recipes ==> k < nextRecipe && ValidRecipe(recipes[k], tags)
  }

  /** The rows a recipe lists exist. */
  predicate RowsExist(recipes: map<RecipeId, Recipe>, entries: map<EntryId, IngredientEntry>) {
    forall k, i :: k in recipes && 0 <= i < |recipes[k].ingredients| ==> recipes[k].ingredients[i] in entries
  }

  /** No ingredient-quantity row is listed twice, by one recipe or by two. */
  predicate RowsUnshared(recipes: map<RecipeId, Recipe>) {
    forall k, i, l, j ::
      k in recipes && l in recipes && 0 <= i < |recipes[k].ingredients| && 0 <= j < |recipes[l].ingredients|
      && (k != l || i != j)
      ==> recipes[k].ingredients[i] != recipes[l].ingredients[j]
  }

  /** The rows a list of keys names, in that order. */
  function EntriesOf(entries: map<EntryId, IngredientEntry>, ids: seq<EntryId>): (es: seq<IngredientEntry>)
    requires forall i :: 0 <= i < |ids| ==> ids[i] in entries
    ensures |es| == |ids|
    ensures forall i :: 0 <= i < |ids| ==> es[i] == entries[ids[i]]
  {
    seq(|ids|, i requires 0 <= i < |ids| => entries[ids[i]])
  }

  class Store {
    var users: set<UserId>
    var ingredients: map<IngredientId, Ingredient>
    var tags: map<TagId, Tag>
    var entries: map<EntryId, IngredientEntry>
    var nextEntryId: nat
    var recipes: map<RecipeId, Recipe>
    var nextRecipeId: nat
    var favorites: seq<Pair>
    var carts: seq<Pair>
    var follows: seq<FollowEdge>

    /** An empty database: no users, ingredients, tags, rows, recipes or relation rows. */
    constructor ()
      ensures Valid()
      ensures users == {} && ingredients == map[] && tags == map[] && entries == map[] && recipes == map[]
      ensures nextEntryId == 0 && nextRecipeId == 0
      ensures favorites == [] && carts == [] && follows == []
    {
      users, ingredients, tags := {}, map[], map[];
      entries, nextEntryId := map[], 0;
      recipes, nextRecipeId := map[], 0;
      favorites, carts, follows := [], [], [];
    }

    ghost predicate Valid()
      reads this
    {
      && UniqueSlugs(tags)
      && EntriesValid(entries, ingredients, nextEntryId)
      && RecipesValid(recipes, tags, nextRecipeId)
      && RowsExist(recipes, entries)
      && RowsUnshared(recipes)
      && Distinct(favorites)
      && Distinct(carts)
      && Distinct(follows)
    }

    /** The table a relation kind names. */
    function Rows(kind: Relation): seq<Pair>
      reads this
    {
      match kind
      case Favorites => favorites
      case ShoppingCart => carts
    }
  }

  /**
   * Creating a fresh ingredient-quantity row and attaching it to recipe `id`
   * keeps the rows valid, existing and unshared.
   */
  lemma AttachFresh(
    recipes: map<RecipeId, Recipe>, entries: map<EntryId, IngredientEntry>,
    ingredients: map<IngredientId, Ingredient>, nextEntry: nat, id: RecipeId, e: IngredientEntry)
    requires EntriesValid(entries, ingredients, nextEntry)
    requires RowsExist(recipes, entries) && RowsUnshared(recipes)
    requires id in recipes && ValidEntry(e, ingredients)
    ensures var recipes' := recipes[id := recipes[id].(ingredients := recipes[id].ingredients + [nextEntry])];
            var entries' := entries[nextEntry := e];
            && EntriesValid(entries', ingredients, nextEntry + 1)
            && RowsExist(recipes', entries')
            && RowsUnshared(recipes')
  {
    var recipes' := recipes[id := recipes[id].(ingredients := recipes[id].ingredients + [nextEntry])];
    var before := recipes[id].ingredients;
    assert forall k, i :: k in recipes' && 0 <= i < |recipes'[k].ingredients| ==>
      (recipes'[k].ingredients[i] == nextEntry <==> k == id && i == |before|) by {
      forall k, i | k in recipes' && 0 <= i < |recipes'[k].ingredients|
        ensures recipes'[k].ingredients[i] == nextEntry <==> k == id && i == |before|
      {
        if k == id && i < |before| {
          assert recipes'[k].ingredients[i] == recipes[id].ingredients[i];
        }
      }
    }
  }

  /** The keys a recipe lists, as a set. */
  function KeysOf(ids: seq<EntryId>): (s: set<EntryId>)
    ensures forall e :: e in s <==> e in ids
  {
    set e | e in ids
  }

  /**
   * `entries'` is `entries` after rows were only added, each under a key
   * from `next` on: the rows before stay as they were, and every key
   * `entries'` holds is an old key or one the recipe now lists in `ids'`,
   * so no added row is left unlisted.
   */
  predicate Grown(entries: map<EntryId, IngredientEntry>, next: nat,
                  entries': map<EntryId, IngredientEntry>, ids': seq<EntryId>) {
    && (forall e :: e in entries ==> e in entries' && entries'[e] == entries[e])
    && (forall e :: e in entries' && e !in entries ==> next <= e)
    && entries'.Keys == entries.Keys + KeysOf(ids')
  }

  /** Adding one more row under a fresh key and listing it keeps the growth in that shape. */
  lemma GrownStep(entries: map<EntryId, IngredientEntry>, next: nat,
                  entries': map<EntryId, IngredientEntry>, ids': seq<EntryId>, k: EntryId, row: IngredientEntry)
    requires Grown(entries, next, entries', ids') && k !in entries' && next <= k
    ensures Grown(entries, next, entries'[k := row], ids' + [k])
  {
    assert KeysOf(ids' + [k]) == KeysOf(ids') + {k};
  }

  /**
   * Deleting the rows `gone` lists and then growing the table from key
   * `next` on, when every deleted key is below `next`: the deleted rows stay
   * deleted and are not listed again, and every other old row stays.
   */
  lemma ShrunkThenGrown(entries: map<EntryId, IngredientEntry>, gone: seq<EntryId>, next: nat,
                        entries': map<EntryId, IngredientEntry>, ids': seq<EntryId>)
    requires forall e :: e in gone ==> e < next
    requires Grown(entries - KeysOf(gone), next, entries', ids')
    ensures forall e :: e in gone ==> e !in entries' && e !in ids'
    ensures entries'.Keys == (entries.Keys - KeysOf(gone)) + KeysOf(ids')
    ensures forall e :: e in entries && e !in gone ==> e in entries' && entries'[e] == entries[e]
  {
  }

  /**
   * Deleting every row recipe `id` lists, and its links to them, keeps the
   * other recipes' rows in place.
   */
  lemma DetachAll(
    recipes: map<RecipeId, Recipe>, entries: map<EntryId, IngredientEntry>,
    ingredients: map<IngredientId, Ingredient>, nextEntry: nat, id: RecipeId)
    requires EntriesValid(entries, ingredients, nextEntry)
    requires RowsExist(recipes, entries) && RowsUnshared(recipes)
    requires id in recipes
    ensures var recipes' := recipes[id := recipes[id].(ingredients := [])];
            var entries' := entries - KeysOf(recipes[id].ingredients);
            && EntriesValid(entries', ingredients, nextEntry)
            && RowsExist(recipes', entries')
            && RowsUnshared(recipes')
  {
    var recipes' := recipes[id := recipes[id].(ingredients := [])];
    var gone := KeysOf(recipes[id].ingredients);
    forall k, i | k in recipes' && 0 <= i < |recipes'[k].ingredients|
      ensures recipes'[k].ingredients[i] in entries - gone
    {
      assert k != id;
      var x := recipes[k].ingredients[i];
      assert forall j :: 0 <= j < |recipes[id].ingredients| ==> recipes[id].ingredients[j] != x;
    }
  }
}

=== FILE: import_csv.dfy ===
/**
 * The import_csv management command for the ingredients file: the header row
 * names the fields, every further row becomes one saved object built from its
 * non-empty cells, and the command reports how many rows it saved with the
 * Russian noun form that agrees with that number.
 */
module ImportCsv {
  import opened Common

  /** The fields of the ingredient model a header may name. */
  const KnownFields: set<string> := {"id", "name", "measurement_unit"}

  // ---------------------------------------------------------------------
  // The report message

  /** The four messages: none updated, and the singular, paucal and plural forms of "object". */
  datatype NounForm = NoneUpdated | Singular | Paucal | Plural

  /**
   * The noun form as the command selects it. The singular test also asks
   * that count % 100 be non-zero, which it always is when the last digit is
   * 1, so 11, 111, 211, ... get the singular.
   */
  function FormAsWritten(count: nat): (f: NounForm)
    ensures f == NoneUpdated <==> count == 0
    ensures f == Singular <==> count % 10 == 1
    ensures f == Paucal <==> 2 <= count % 10 <= 4 && !(12 <= count % 100 <= 14)
  {
    if count == 0 then NoneUpdated
    else if count % 10 == 1 && count % 100 != 0 then Singular
    else if 2 <= count % 10 <= 4 && (count % 100 < 10 || count % 100 >= 20) then Paucal
    else Plural
  }

  /** The noun form with the teens 11..14 taken to the plural, as Russian grammar has it. */
  function Form(count: nat): (f: NounForm)
    ensures f == NoneUpdated <==> count == 0
    ensures f == Singular <==> count % 10 == 1 && count % 100 != 11
    ensures f == Paucal <==> 2 <= count % 10 <= 4 && !(12 <= count % 100 <= 14)
    ensures count > 0 && (count % 10 !in {1, 2, 3, 4} || 11 <= count % 100 <= 14) ==> f == Plural
  {
    if count == 0 then NoneUpdated
    else if count % 10 == 1 && count % 100 != 11 then Singular
    else if 2 <= count % 10 <= 4 && (count % 100 < 10 || count % 100 >= 20) then Paucal
    else Plural
  }

  /** The two selections differ exactly on the counts whose last two digits are 11. */
  lemma FormsDiffer(count: nat)
    ensures FormAsWritten(count) != Form(count) <==> count % 100 == 11
  {
    if count % 100 == 11 {
      // a count whose last two digits are 11 ends in 1
      var q, d := count / 100, count / 10;
      assert count % 10 - 1 == 10 * (10 * q + 1 - d);
    }
  }

  /** Decimal rendering of a count, as an f-string writes it. */
  function Decimal(n: nat): (s: string)
    ensures |s| >= 1 && forall i :: 0 <= i < |s| ==> '0' <= s[i] <= '9'
    ensures n < 10 <==> |s| == 1
    ensures n >= 10 ==> s[0] != '0'
  {
    if n < 10 then [Digit(n)] else Decimal(n / 10) + [Digit(n % 10)]
  }

  function Digit(d: nat): (c: char)
    requires d < 10
    ensures '0' <= c <= '9' && (c - '0') as nat == d
  {
    ('0' as int + d) as char
  }

  /** The value of a string of decimal digits. */
  function DigitsValue(s: string): nat
    requires forall i :: 0 <= i < |s| ==> '0' <= s[i] <= '9'
  {
    if s == [] then 0 else 10 * DigitsValue(s[..|s| - 1]) + (s[|s| - 1] - '0') as nat
  }

  /** Reading the rendered count back gives the count. */
  lemma {:induction false} DecimalRoundTrip(n: nat)
    ensures DigitsValue(Decimal(n)) == n
  {
    if n >= 10 {
      DecimalRoundTrip(n / 10);
      var s := Decimal(n);
      assert s[..|s| - 1] == Decimal(n / 10) && s[|s| - 1] == Digit(n % 10);
    }
  }

  /** The wording of each noun form, with the count written in decimal. */
  function Wording(f: NounForm, count: nat): string {
    match f
    case NoneUpdated => "нет обновленных объектов!"
    case Singular => "обновлен " + Decimal(count) + " объект!"
    case Paucal => "обновлено " + Decimal(count) + " объекта!"
    case Plural => "обновлено " + Decimal(count) + " объектов!"
  }

  /** The message the command writes for a count of saved rows, with the noun form as written. */
  function Message(count: nat): (msg: string)
    ensures count == 0 ==> msg == "нет обновленных объектов!"
    ensures count % 10 == 1 ==> msg == "обновлен " + Decimal(count) + " объект!"
    ensures 2 <= count % 10 <= 4 && !(12 <= count % 100 <= 14) ==> msg == "обновлено " + Decimal(count) + " объекта!"
    ensures count > 0 && count % 10 !in {1, 2, 3, 4} ==> msg == "обновлено " + Decimal(count) + " объектов!"
    ensures count > 0 && count % 10 in {2, 3, 4} && 12 <= count % 100 <= 14 ==> msg == "обновлено " + Decimal(count) + " объектов!"
  {
    Wording(FormAsWritten(count), count)
  }

  /** The message with the intended noun form: the teens 11..14 take the plural. */
  function MessageIntended(count: nat): (msg: string)
    ensures count == 0 ==> msg == "нет обновленных объектов!"
    ensures count % 10 == 1 && count % 100 != 11 ==> msg == "обновлен " + Decimal(count) + " объект!"
    ensures 2 <= count % 10 <= 4 && !(12 <= count % 100 <= 14) ==> msg == "обновлено " + Decimal(count) + " объекта!"
    ensures count > 0 && (count % 10 !in {1, 2, 3, 4} || 11 <= count % 100 <= 14) ==> msg == "обновлено " + Decimal(count) + " объектов!"
  {
    Wording(Form(count), count)
  }

  /** Distinct noun forms give distinct messages for the same count. */
  lemma WordingDistinguishes(f: NounForm, g: NounForm, count: nat)
    requires f != g && (f == NoneUpdated <==> count == 0) && (g == NoneUpdated <==> count == 0)
    ensures Wording(f, count) != Wording(g, count)
  {
    var a, b := Wording(f, count), Wording(g, count);
    if f == Singular {
      assert a[8] == ' ' && b[8] == 'о';
    } else if g == Singular {
      assert b[8] == ' ' && a[8] == 'о';
    } else {
      assert |a| != |b|;
    }
  }

  /** The written message and the intended one differ exactly on the counts whose last two digits are 11. */
  lemma MessagesDiffer(count: nat)
    ensures Message(count) != MessageIntended(count) <==> count % 100 == 11
  {
    FormsDiffer(count);
    if FormAsWritten(count) != Form(count) {
      WordingDistinguishes(FormAsWritten(count), Form(count), count);
    }
  }

  /** Four sample counts and the messages they get. */
  lemma SampleMessages()
    ensures Message(0) == "нет обновленных объектов!"
    ensures Message(1) == "обновлен 1 объект!"
    ensures Message(3) == "обновлено 3 объекта!"
    ensures Message(12) == "обновлено 12 объектов!"
  {
    assert Decimal(12) == Decimal(1) + [Digit(2)];
  }

  /** 11 saved rows are reported as "обновлен 11 объект!", while the grammar wants "обновлено 11 объектов!". */
  lemma ElevenAsWritten()
    ensures FormAsWritten(11) == Singular && Form(11) == Plural
    ensures Message(11) == "обновлен 11 объект!"
    ensures MessageIntended(11) == "обновлено 11 объектов!"
  {
    assert Decimal(11) == Decimal(1) + [Digit(1)];
  }

  // ---------------------------------------------------------------------
  // One row to a field dict

  /**
   * The field dict built from the first n cells of a row: an empty cell is
   * skipped; a non-empty cell stores its value under its header, after the
   * header has been checked to name a field. A row shorter than the headers
   * fails when its first missing cell is reached.
   */
  function FieldsUpTo(headers: seq<string>, row: seq<string>, n: nat): (r: Result<map<string, string>>)
    requires n <= |headers|
    ensures r.Err? ==> r.error == IndexError || r.error.FieldDoesNotExist?
  {
    if n == 0 then Ok(map[])
    else
      match FieldsUpTo(headers, row, n - 1)
      case Err(e) => Err(e)
      case Ok(d) =>
        var i := n - 1;
        if i >= |row| then Err(IndexError)
        else if row[i] == "" then Ok(d)
        else if headers[i] !in KnownFields then Err(FieldDoesNotExist(headers[i]))
        else Ok(d[headers[i] := row[i]])
  }

  /** The row converts exactly when it has a cell under every header and each non-empty cell is under a field name. */
  lemma {:induction false} FieldsOk(headers: seq<string>, row: seq<string>, n: nat)
    requires n <= |headers|
    ensures FieldsUpTo(headers, row, n).Ok? <==>
              n <= |row| && forall i :: 0 <= i < n && row[i] != "" ==> headers[i] in KnownFields
  {
    if n > 0 {
      FieldsOk(headers, row, n - 1);
    }
  }

  /** The keys of the dict are the headers of the non-empty cells. */
  lemma {:induction false} FieldsKeys(headers: seq<string>, row: seq<string>, n: nat)
    requires n <= |headers| && FieldsUpTo(headers, row, n).Ok?
    ensures forall k :: k in FieldsUpTo(headers, row, n).value <==> exists i :: 0 <= i < n && row[i] != "" && headers[i] == k
  {
    if n > 0 {
      FieldsKeys(headers, row, n - 1);
      var i := n - 1;
      if row[i] != "" {
        assert headers[i] in FieldsUpTo(headers, row, n).value;
      }
    }
  }

  /** Each key holds the value of the last non-empty cell under it. */
  lemma {:induction false} FieldsValues(headers: seq<string>, row: seq<string>, n: nat)
    requires n <= |headers| && FieldsUpTo(headers, row, n).Ok?
    ensures forall i :: 0 <= i < n && row[i] != "" && (forall j :: i < j < n && row[j] != "" ==> headers[j] != headers[i])
              ==> headers[i] in FieldsUpTo(headers, row, n).value && FieldsUpTo(headers, row, n).value[headers[i]] == row[i]
  {
    if n > 0 {
      FieldsValues(headers, row, n - 1);
    }
  }

  /** Once a cell fails, the row fails with that error whatever follows. */
  lemma {:induction false} FailureSticks(headers: seq<string>, row: seq<string>, i: nat, n: nat)
    requires i <= n <= |headers| && FieldsUpTo(headers, row, i).Err?
    ensures FieldsUpTo(headers, row, n) == FieldsUpTo(headers, row, i)
    decreases n - i
  {
    if i < n {
      assert FieldsUpTo(headers, row, i + 1) == FieldsUpTo(headers, row, i);
      FailureSticks(headers, row, i + 1, n);
    }
  }

  /** The field dict of a whole row. */
  function Fields(headers: seq<string>, row: seq<string>): Result<map<string, string>> {
    FieldsUpTo(headers, row, |headers|)
  }

  /** With distinct headers, every non-empty cell of a well-formed row is stored under its header. */
  lemma DistinctHeadersKeepEveryCell(headers: seq<string>, row: seq<string>)
    requires forall i, j :: 0 <= i < j < |headers| ==> headers[i] != headers[j]
    requires Fields(headers, row).Ok?
    ensures forall i :: 0 <= i < |headers| && row[i] != "" ==>
              headers[i] in Fields(headers, row).value && Fields(headers, row).value[headers[i]] == row[i]
    ensures forall i :: 0 <= i < |headers| && row[i] == "" ==> headers[i] !in Fields(headers, row).value
  {
    FieldsValues(headers, row, |headers|);
    FieldsKeys(headers, row, |headers|);
  }

  /** The inner loop of the command over one row's cells. */
  method RowToFields(headers: seq<string>, row: seq<string>) returns (r: Result<map<string, string>>)
    ensures r == Fields(headers, row)
  {
    var fields: map<string, string> := map[];
    var i := 0;
    while i < |headers|
      invariant 0 <= i <= |headers|
      invariant FieldsUpTo(headers, row, i) == Ok(fields)
    {
      if i >= |row| {
        FailureSticks(headers, row, i + 1, |headers|);
        return Err(IndexError);
      }
      var value := row[i];
      if value != "" {
        var key := headers[i];
        if key !in KnownFields {
          FailureSticks(headers, row, i + 1, |headers|);
          return Err(FieldDoesNotExist(key));
        }
        fields := fields[key := value];
      }
      i := i + 1;
    }
    r := Ok(fields);
  }

  // ---------------------------------------------------------------------
  // The whole file

  /** The number of data rows that are turned into objects before the first row that fails. */
  function Converted(headers: seq<string>, rows: seq<seq<string>>): (k: nat)
    ensures k <= |rows|
    ensures forall i :: 0 <= i < k ==> Fields(headers, rows[i]).Ok?
    ensures k < |rows| ==> Fields(headers, rows[k]).Err?
  {
    if rows == [] || Fields(headers, rows[0]).Err? then 0
    else 1 + Converted(headers, rows[1..])
  }

  /**
   * The number of data rows saved before the first row that stops the
   * command: a row stops it when it does not convert, or when `accepts`
   * (whether the database takes the object `model(**dict)` builds from the
   * row's field dict) says `save()` refuses it.
   */
  function Saved(headers: seq<string>, rows: seq<seq<string>>, accepts: map<string, string> -> bool): (k: nat)
    ensures k <= Converted(headers, rows)
    ensures forall i :: 0 <= i < k ==> Fields(headers, rows[i]).Ok? && accepts(Fields(headers, rows[i]).value)
    ensures k < |rows| ==> Fields(headers, rows[k]).Err? || !accepts(Fields(headers, rows[k]).value)
  {
    if rows == [] || Fields(headers, rows[0]).Err? || !accepts(Fields(headers, rows[0]).value) then 0
    else 1 + Saved(headers, rows[1..], accepts)
  }

  /** When the database takes every object, the rows saved are exactly the rows converted. */
  lemma {:induction false} SavedWhenEveryObjectSaves(headers: seq<string>, rows: seq<seq<string>>, accepts: map<string, string> -> bool)
    requires forall d :: accepts(d)
    ensures Saved(headers, rows, accepts) == Converted(headers, rows)
  {
    if rows != [] && Fields(headers, rows[0]).Ok? {
      SavedWhenEveryObjectSaves(headers, rows[1..], accepts);
    }
  }

  /**
   * handle for the ingredients file, given its rows and whether the database
   * takes each object: the first row is the header; each data row is
   * counted, converted and saved in turn; the first row that fails to
   * convert or to save stops the command with the rows before it saved; once
   * all rows are saved the message for their count is the outcome.
   */
  method Import(lines: seq<seq<string>>, accepts: map<string, string> -> bool) returns (r: Result<string>, saved: seq<map<string, string>>)
    ensures lines == [] ==> r == Err(StopIteration) && saved == []
    ensures lines != [] ==>
              var headers, rows := lines[0], lines[1..];
              var k := Saved(headers, rows, accepts);
              && |saved| == k
              && (forall i :: 0 <= i < k ==> saved[i] == Fields(headers, rows[i]).value)
              && (r.Ok? <==> k == |rows|)
              && (r.Ok? ==> r.value == Message(|rows|))
              && (r.Err? && Fields(headers, rows[k]).Err? ==> r.error == Fields(headers, rows[k]).error)
              && (r.Err? && Fields(headers, rows[k]).Ok? ==> r.error == DataError)
  {
    saved := [];
    if lines == [] {
      return Err(StopIteration), saved;
    }
    var headers := lines[0];
    var count := 0;
    while count < |lines| - 1
      invariant 0 <= count <= |lines| - 1
      invariant count <= Saved(headers, lines[1..], accepts)
      invariant |saved| == count
      invariant forall i :: 0 <= i < count ==> saved[i] == Fields(headers, lines[1..][i]).value
    {
      var row := lines[count + 1];
      assert row == lines[1..][count];
      count := count + 1;
      var fields := RowToFields(headers, row);
      if fields.Err? {
        return Err(fields.error), saved;
      }
      if !accepts(fields.value) {
        return Err(DataError), saved;
      }
      saved := saved + [fields.value];
    }
    r := Ok(Message(count));
  }

  /**
   * A file of well-formed rows whose objects the database all takes is saved
   * whole, and the count reported is the number of data rows.
   */
  lemma CountIsDataRows(lines: seq<seq<string>>, accepts: map<string, string> -> bool)
    requires lines != [] && forall i :: 1 <= i < |lines| ==> Fields(lines[0], lines[i]).Ok?
    requires forall i :: 1 <= i < |lines| ==> accepts(Fields(lines[0], lines[i]).value)
    ensures Converted(lines[0], lines[1..]) == |lines| - 1
    ensures Saved(lines[0], lines[1..], accepts) == |lines| - 1
  {
  }
}

=== FILE: permissions.dfy ===
/**
 * The four permission classes of the API. Each is one boolean expression
 * over the request method, the request user and (for the object checks) the
 * object's author. The anonymous user is a null reference. Evaluating
 * is_admin_or_superuser may set the user's staff flag, so the two classes
 * that evaluate it are methods that may write that flag; each is specified by
 * a predicate on the user's state before the call.
 */
module Permissions {
  import opened Common
  import opened UserModels

  /** The fields of a signed-in user the permission checks read. */
  datatype Member = Member(id: UserId, role: Role, isSuperuser: bool, isStaff: bool)

  /** The request user as the checks see it: None for the anonymous user. */
  function Requester(user: User?): (r: Option<Member>)
    reads user
    ensures r.None? <==> user == null
    ensures r.Some? ==> r.value == Member(user.id, user.role, user.isSuperuser, user.isStaff)
  {
    if user == null then None else Some(Member(user.id, user.role, user.isSuperuser, user.isStaff))
  }

  /** The answer is_admin_or_superuser gives in this state: the staff flag as the read leaves it. */
  predicate AdminOrSuperuser(u: Member) {
    StaffAfterRead(u.role, u.isSuperuser, u.isStaff)
  }

  /** UserIsAdmin.has_permission: a signed-in admin or superuser (or staff member). */
  function UserIsAdminAllows(r: Option<Member>): (allowed: bool)
    ensures r.None? ==> !allowed
    ensures r.Some? ==> (allowed <==> r.value.role == AdminRole || r.value.isSuperuser || r.value.isStaff)
  {
    r.Some? && AdminOrSuperuser(r.value)
  }

  /** AdminModeratorAuthorPermission.has_object_permission. */
  function AdminModeratorAuthorAllows(m: HttpMethod, r: Option<Member>, author: UserId): (allowed: bool)
    ensures IsSafe(m) ==> allowed
    ensures r.None? ==> (allowed <==> IsSafe(m))
    ensures r.Some? && (r.value.id == author || r.value.role != UserRole || r.value.isSuperuser) ==> allowed
    ensures r.Some? && r.value.isStaff ==> allowed
    ensures !IsSafe(m) && r.Some? && r.value.role == UserRole && !r.value.isSuperuser && !r.value.isStaff ==>
              (allowed <==> r.value.id == author)
  {
    IsSafe(m) || (r.Some? && (AdminOrSuperuser(r.value) || r.value.role == ModeratorRole || r.value.id == author))
  }

  /** ReadOnly.has_permission: GET, HEAD and OPTIONS pass, every other method is refused. */
  function ReadOnly(m: HttpMethod): (allowed: bool)
    ensures allowed <==> m == GET || m == HEAD || m == OPTIONS
  {
    IsSafe(m)
  }

  /** IsOwnerOrReadOnly.has_object_permission: the object's author compared with the request user. */
  function IsOwnerOrReadOnly(m: HttpMethod, r: Option<Member>, author: UserId): (allowed: bool)
    ensures IsSafe(m) ==> allowed
    ensures !IsSafe(m) ==> (allowed <==> r.Some? && r.value.id == author)
  {
    IsSafe(m) || (r.Some? && r.value.id == author)
  }

  /**
   * UserIsAdmin on a request: the anonymous user is refused without the
   * property being read; for a signed-in user the property is read, which may
   * set the staff flag, and its answer is the decision.
   */
  method UserIsAdmin(user: User?) returns (allowed: bool)
    modifies user
    ensures allowed == UserIsAdminAllows(old(Requester(user)))
    ensures user != null ==>
              && user.isStaff == StaffAfterRead(old(user.role), old(user.isSuperuser), old(user.isStaff))
              && user.role == old(user.role) && user.isSuperuser == old(user.isSuperuser)
              && user.username == old(user.username)
  {
    if user == null {
      allowed := false;
    } else {
      allowed := user.IsAdminOrSuperuser();
    }
  }

  /**
   * AdminModeratorAuthorPermission on a request: safe methods pass without
   * reading anything; otherwise a signed-in user passes as admin or
   * superuser, moderator or author, and is_admin_or_superuser is read first.
   */
  method AdminModeratorAuthorPermission(m: HttpMethod, user: User?, author: UserId) returns (allowed: bool)
    modifies user
    ensures allowed == AdminModeratorAuthorAllows(m, old(Requester(user)), author)
    ensures user != null ==>
              && user.role == old(user.role) && user.isSuperuser == old(user.isSuperuser)
              && user.username == old(user.username)
    ensures user != null && IsSafe(m) ==> user.isStaff == old(user.isStaff)
    ensures user != null && !IsSafe(m) ==>
              user.isStaff == StaffAfterRead(old(user.role), old(user.isSuperuser), old(user.isStaff))
  {
    if IsSafe(m) {
      allowed := true;
    } else if user == null {
      allowed := false;
    } else {
      var admin := user.IsAdminOrSuperuser();
      allowed := admin || user.IsModerator() || user.id == author;
    }
  }

  /** Whatever the staff flag is set to by a read, the next read gives the same answer. */
  lemma StaffWriteKeepsAnswer(u: Member)
    ensures var u' := u.(isStaff := StaffAfterRead(u.role, u.isSuperuser, u.isStaff));
            && AdminOrSuperuser(u') == AdminOrSuperuser(u)
            && u'.isStaff == AdminOrSuperuser(u)
  {
  }

  /** ReadOnly passes exactly the safe methods; the anonymous user can only read, and is never an admin. */
  lemma AnonymousOnlyReads(m: HttpMethod, author: UserId)
    ensures ReadOnly(m) <==> IsSafe(m)
    ensures !UserIsAdminAllows(None)
    ensures AdminModeratorAuthorAllows(m, None, author) <==> IsSafe(m)
    ensures IsOwnerOrReadOnly(m, None, author) <==> IsSafe(m)
  {
  }

  /** Whatever the owner check allows, the admin/moderator/author check allows too; admins pass both ways. */
  lemma OwnerCheckIsStricter(m: HttpMethod, r: Option<Member>, author: UserId)
    ensures IsOwnerOrReadOnly(m, r, author) ==> AdminModeratorAuthorAllows(m, r, author)
    ensures UserIsAdminAllows(r) ==> AdminModeratorAuthorAllows(m, r, author)
  {
  }

  /** A plain user who is not the author cannot change the object under either object check. */
  lemma PlainUserRefused(m: HttpMethod, u: Member, author: UserId)
    requires !IsSafe(m) && u.role == UserRole && !u.isSuperuser && !u.isStaff && u.id != author
    ensures !AdminModeratorAuthorAllows(m, Some(u), author)
    ensures !IsOwnerOrReadOnly(m, Some(u), author)
  {
  }
}

=== FILE: recipe_models.dfy ===
/**
 * The records of the recipe app: ingredients, ingredient-quantity rows, tags,
 * recipes and the two user-recipe relation tables, with the constraints their
 * field declarations carry, and the newest-first order in which recipes are
 * listed.
 */
module RecipeModels {
  import opened Common

  /** Reference data: an ingredient and the unit it is measured in. */
  datatype Ingredient = Ingredient(name: string, measurementUnit: string)

  /** One ingredient-quantity row: a reference to one ingredient and an amount. */
  datatype IngredientEntry = IngredientEntry(ingredient: IngredientId, amount: int)

  /** The largest value a positive-integer column holds: it is a signed 32-bit column. */
  const MaxAmount := 2147483647

  /** The amount column is a positive-integer field: it admits 0 up to `MaxAmount` and refuses the rest. */
  predicate AmountFits(a: int) {
    0 <= a <= MaxAmount
  }

  predicate ValidEntry(e: IngredientEntry, ingredients: map<IngredientId, Ingredient>)
    ensures e.ingredient !in ingredients ==> !ValidEntry(e, ingredients)
    ensures e.ingredient in ingredients ==> (ValidEntry(e, ingredients) <==> 0 <= e.amount <= MaxAmount)
  {
    e.ingredient in ingredients && AmountFits(e.amount)
  }

  datatype Tag = Tag(name: string, color: string, slug: string)

  /** The slug column is declared unique. */
  predicate UniqueSlugs(tags: map<TagId, Tag>)
    ensures UniqueSlugs(tags) <==> forall a, b :: a in tags && b in tags && tags[a].slug == tags[b].slug ==> a == b
  {
    forall a, b :: a in tags && b in tags && a != b ==> tags[a].slug != tags[b].slug
  }

  /**
   * A recipe. `ingredients` holds the keys of its ingredient-quantity rows in
   * the order they were attached; `tags` is its many-to-many tag set;
   * `pubDate` is refreshed on every save.
   */
  datatype Recipe = Recipe(
    author: UserId,
    name: string,
    image: string,
    text: string,
    ingredients: seq<EntryId>,
    tags: set<TagId>,
    cookingTime: int,
    pubDate: int)

  /** Cooking time is a positive-integer field with a minimum of 1; every tag is a known tag. */
  predicate ValidRecipe(r: Recipe, tags: map<TagId, Tag>)
    ensures ValidRecipe(r, tags) <==> r.cookingTime > 0 && forall t :: t in r.tags ==> t in tags
  {
    r.cookingTime >= 1 && r.tags <= tags.Keys
  }

  /** A row of the favorites table or of the shopping-cart table. */
  datatype Pair = Pair(user: UserId, recipe: RecipeId)

  /** The two user-recipe relation tables, which share one shape. */
  datatype Relation = Favorites | ShoppingCart

  /** Ordering by descending publication date. */
  predicate NewestFirst(rs: seq<Recipe>) {
    forall i, j :: 0 <= i < j < |rs| ==> rs[i].pubDate >= rs[j].pubDate
  }

  /** Places `r` into a newest-first listing, ahead of the recipes as old as it. */
  function InsertByDate(r: Recipe, listing: seq<Recipe>): (res: seq<Recipe>)
    requires NewestFirst(listing)
    ensures NewestFirst(res)
    ensures multiset(res) == multiset(listing) + multiset{r}
  {
    if listing == [] then [r]
    else if r.pubDate >= listing[0].pubDate then
      assert forall j :: 0 <= j < |listing| ==> listing[0].pubDate >= listing[j].pubDate;
      [r] + listing
    else
      var head, tail := listing[0], listing[1..];
      assert listing == [head] + tail;
      var rest := InsertByDate(r, tail);
      BoundKept(r, tail, rest, head.pubDate);
      [head] + rest
  }

  /** A bound on the dates of a listing and of `r` bounds any rearrangement of them. */
  lemma BoundKept(r: Recipe, tail: seq<Recipe>, rest: seq<Recipe>, bound: int)
    requires multiset(rest) == multiset(tail) + multiset{r}
    requires r.pubDate <= bound && forall j :: 0 <= j < |tail| ==> tail[j].pubDate <= bound
    ensures forall i :: 0 <= i < |rest| ==> rest[i].pubDate <= bound
  {
    forall i | 0 <= i < |rest| ensures rest[i].pubDate <= bound {
      var x := rest[i];
      assert x in multiset(rest);
      if x != r {
        assert x in multiset(tail);
        assert x in tail;
      }
    }
  }

  /** The `ordering = ['-pub_date']` listing of a set of recipes. */
  function OrderByNewest(rs: seq<Recipe>): (res: seq<Recipe>)
    ensures NewestFirst(res)
    ensures multiset(res) == multiset(rs)
  {
    if rs == [] then []
    else
      assert rs == [rs[0]] + rs[1..];
      InsertByDate(rs[0], OrderByNewest(rs[1..]))
  }
}

=== FILE: serializers.dfy ===
/**
 * The serializers that carry logic: the username rule, the two per-request
 * recipe flags, the recipe aggregate writes (create and update, which
 * rebuild the ingredient-quantity rows one by one), the author's recipe
 * listing in a subscription, and the follow validation.
 */
module Serializers {
  import opened Common
  import opened Tables
  import opened RecipeModels
  import opened Database

  /** validate_username: refuses exactly "me" and passes any other name through. */
  function ValidateUsername(username: string): (r: Result<string>)
    ensures r.Ok? <==> username != "me"
    ensures r.Ok? ==> r.value == username
    ensures r.Err? ==> r.error.ValidationError?
  {
    if username == "me" then Err(ValidationError("Name \"me\" is prohibited.")) else Ok(username)
  }

  /**
   * get_is_favorited on the favorites table and get_is_in_shopping_cart on
   * the shopping-cart table: the requester is signed in (None stands for the
   * anonymous user) and has a row for the recipe.
   */
  function HasRow(rows: seq<Pair>, requester: Option<UserId>, recipe: RecipeId): (b: bool)
    ensures b <==> requester.Some? && Pair(requester.value, recipe) in rows
    ensures requester.None? ==> !b
  {
    requester.Some? && Contains(rows, Pair(requester.value, recipe))
  }

  /** One item of the `ingredients` input: an ingredient key and an amount. */
  datatype IngredientInput = IngredientInput(id: IngredientId, amount: int)

  /** The validated data of a recipe write. */
  datatype RecipeInput = RecipeInput(
    name: string,
    image: string,
    text: string,
    cookingTime: int,
    tags: set<TagId>,
    items: seq<IngredientInput>)

  /**
   * What validation has established before create or update runs: the
   * cooking time is at least 1 and every tag and ingredient key names an
   * existing row. The amount field has no minimum and no maximum.
   */
  predicate InputValid(ingredients: map<IngredientId, Ingredient>, tags: map<TagId, Tag>, input: RecipeInput) {
    && input.cookingTime >= 1
    && input.tags <= tags.Keys
    && forall i :: 0 <= i < |input.items| ==> input.items[i].id in ingredients
  }

  /**
   * The validated data of an update. A partial update (PATCH) validates
   * only the fields the request carries, so each may be absent.
   */
  datatype RecipeChanges = RecipeChanges(
    name: Option<string>,
    image: Option<string>,
    text: Option<string>,
    cookingTime: Option<int>,
    tags: Option<set<TagId>>,
    items: Option<seq<IngredientInput>>)

  /** What validation has established about the fields an update carries. */
  predicate ChangesValid(ingredients: map<IngredientId, Ingredient>, tags: map<TagId, Tag>, ch: RecipeChanges) {
    && (ch.cookingTime.Some? ==> ch.cookingTime.value >= 1)
    && (ch.tags.Some? ==> ch.tags.value <= tags.Keys)
    && (ch.items.Some? ==> forall i :: 0 <= i < |ch.items.value| ==> ch.items.value[i].id in ingredients)
  }

  /** The value a field takes: the given one when present, the stored one otherwise. */
  function Given<T>(given: Option<T>, stored: T): T {
    if given.Some? then given.value else stored
  }

  /**
   * `super().update(instance, validated_data)` on a recipe: each plain field
   * the data carries is written, the others keep their value, and the save
   * refreshes the publication date.
   */
  function Patched(rec: Recipe, ch: RecipeChanges, now: int): (r: Recipe)
    ensures r.author == rec.author && r.ingredients == rec.ingredients && r.tags == rec.tags && r.pubDate == now
    ensures ch.name.None? ==> r.name == rec.name
    ensures ch.image.None? ==> r.image == rec.image
    ensures ch.text.None? ==> r.text == rec.text
    ensures ch.cookingTime.None? ==> r.cookingTime == rec.cookingTime
    ensures ch.name.Some? ==> r.name == ch.name.value
    ensures ch.image.Some? ==> r.image == ch.image.value
    ensures ch.text.Some? ==> r.text == ch.text.value
    ensures ch.cookingTime.Some? ==> r.cookingTime == ch.cookingTime.value
  {
    rec.(name := Given(ch.name, rec.name), image := Given(ch.image, rec.image), text := Given(ch.text, rec.text),
         cookingTime := Given(ch.cookingTime, rec.cookingTime), pubDate := now)
  }

  /** A patch keeps a valid recipe valid, and applying it twice is applying it once. */
  lemma PatchKeepsValid(rec: Recipe, ch: RecipeChanges, now: int, tags: map<TagId, Tag>)
    requires ValidRecipe(rec, tags) && (ch.cookingTime.Some? ==> ch.cookingTime.value >= 1)
    ensures ValidRecipe(Patched(rec, ch, now), tags)
    ensures Patched(Patched(rec, ch, now), ch, now) == Patched(rec, ch, now)
  {
  }

  /** The ingredient-quantity rows built from input items, one per item, in order. */
  function Built(items: seq<IngredientInput>): (es: seq<IngredientEntry>)
    ensures |es| == |items|
    ensures forall i :: 0 <= i < |items| ==> es[i] == IngredientEntry(items[i].id, items[i].amount)
  {
    seq(|items|, i requires 0 <= i < |items| => IngredientEntry(items[i].id, items[i].amount))
  }

  /**
   * How many items are stored before the first one the database refuses
   * (an amount outside the 32-bit non-negative amount column).
   */
  function Accepted(items: seq<IngredientInput>): (k: nat)
    ensures k <= |items|
    ensures forall i :: 0 <= i < k ==> AmountFits(items[i].amount)
    ensures k < |items| ==> !AmountFits(items[k].amount)
  {
    if items == [] || !AmountFits(items[0].amount) then 0
    else 1 + Accepted(items[1..])
  }

  /** The column's bounds at work: the largest 32-bit amount is stored, one more is refused like a negative one. */
  lemma AcceptedAtTheBounds(id: IngredientId)
    ensures Accepted([IngredientInput(id, MaxAmount)]) == 1
    ensures Accepted([IngredientInput(id, MaxAmount + 1)]) == 0
    ensures Accepted([IngredientInput(id, 0), IngredientInput(id, -1), IngredientInput(id, 5)]) == 1
  {
    assert [IngredientInput(id, 0), IngredientInput(id, -1), IngredientInput(id, 5)][1..] == [IngredientInput(id, -1), IngredientInput(id, 5)];
  }

  /** The rows recipe `id` lists, read from the store. */
  ghost function RecipeEntries(db: Database.Store, id: RecipeId): seq<IngredientEntry>
    reads db
    requires db.Valid() && id in db.recipes
  {
    EntriesOf(db.entries, db.recipes[id].ingredients)
  }

  /**
   * One turn of the loop: create the row (the database refuses none here, as
   * the amount fits the column) and attach it to recipe `id`.
   */
  method AttachOne(db: Database.Store, id: RecipeId, row: IngredientEntry)
    requires db.Valid() && id in db.recipes && ValidEntry(row, db.ingredients)
    modifies db`entries, db`nextEntryId, db`recipes
    ensures db.Valid()
    ensures db.recipes.Keys == old(db.recipes.Keys)
    ensures forall k :: k in db.recipes && k != id ==> db.recipes[k] == old(db.recipes[k])
    ensures db.recipes[id] == old(db.recipes[id]).(ingredients := old(db.recipes[id].ingredients) + [old(db.nextEntryId)])
    ensures RecipeEntries(db, id) == old(RecipeEntries(db, id)) + [row]
    ensures old(db.nextEntryId) !in old(db.entries) && db.entries == old(db.entries)[old(db.nextEntryId) := row]
    ensures db.nextEntryId > old(db.nextEntryId)
  {
    var key := db.nextEntryId;
    AttachFresh(db.recipes, db.entries, db.ingredients, key, id, row);
    assert key !in db.entries;
    db.entries := db.entries[key := row];
    db.nextEntryId := key + 1;
    db.recipes := db.recipes[id := db.recipes[id].(ingredients := db.recipes[id].ingredients + [key])];
  }

  /**
   * The loop shared by create and update: for each input item, create an
   * ingredient-quantity row and attach it to recipe `id`. It stops at the
   * first item whose amount the database refuses; rows made before then stay.
   */
  method AttachEntries(db: Database.Store, id: RecipeId, items: seq<IngredientInput>) returns (ok: bool)
    requires db.Valid() && id in db.recipes
    requires forall i :: 0 <= i < |items| ==> items[i].id in db.ingredients
    modifies db`entries, db`nextEntryId, db`recipes
    ensures db.Valid()
    ensures ok <==> Accepted(items) == |items|
    ensures db.recipes.Keys == old(db.recipes.Keys)
    ensures forall k :: k in db.recipes && k != id ==> db.recipes[k] == old(db.recipes[k])
    ensures db.recipes[id] == old(db.recipes[id]).(ingredients := db.recipes[id].ingredients)
    ensures RecipeEntries(db, id) == old(RecipeEntries(db, id)) + Built(items[..Accepted(items)])
    ensures Grown(old(db.entries), old(db.nextEntryId), db.entries, db.recipes[id].ingredients)
  {
    assert KeysOf(db.recipes[id].ingredients) <= db.entries.Keys;
    var i := 0;
    while i < |items|
      invariant 0 <= i <= |items|
      invariant i <= Accepted(items)
      invariant db.Valid() && id in db.recipes
      invariant db.recipes == old(db.recipes)[id := old(db.recipes[id]).(ingredients := db.recipes[id].ingredients)]
      invariant RecipeEntries(db, id) == old(RecipeEntries(db, id)) + Built(items[..i])
      invariant Grown(old(db.entries), old(db.nextEntryId), db.entries, db.recipes[id].ingredients)
      invariant db.nextEntryId >= old(db.nextEntryId)
    {
      if !AmountFits(items[i].amount) {
        return false;
      }
      AttachItem(db, id, items, i, old(db.recipes), old(db.entries), old(db.nextEntryId), old(RecipeEntries(db, id)));
      i := i + 1;
    }
    assert items[..i] == items;
    return true;
  }

  /**
   * One turn of the loop above, stated against the store as it was before
   * the loop (`recipes0`, `entries0`, `next0`, and `rows0` the rows the
   * recipe listed then): the row for item `i` is attached and the rows
   * attached so far are those of the first i + 1 items.
   */
  method AttachItem(db: Database.Store, id: RecipeId, items: seq<IngredientInput>, i: nat,
                    ghost recipes0: map<RecipeId, Recipe>, ghost entries0: map<EntryId, IngredientEntry>,
                    ghost next0: nat, ghost rows0: seq<IngredientEntry>)
    requires db.Valid() && id in db.recipes && id in recipes0
    requires i < |items| && AmountFits(items[i].amount) && items[i].id in db.ingredients
    requires db.recipes == recipes0[id := recipes0[id].(ingredients := db.recipes[id].ingredients)]
    requires RecipeEntries(db, id) == rows0 + Built(items[..i])
    requires Grown(entries0, next0, db.entries, db.recipes[id].ingredients)
    requires db.nextEntryId >= next0
    modifies db`entries, db`nextEntryId, db`recipes
    ensures db.Valid() && id in db.recipes
    ensures db.recipes == recipes0[id := recipes0[id].(ingredients := db.recipes[id].ingredients)]
    ensures RecipeEntries(db, id) == rows0 + Built(items[..i + 1])
    ensures Grown(entries0, next0, db.entries, db.recipes[id].ingredients)
    ensures db.nextEntryId >= next0
  {
    var row := IngredientEntry(items[i].id, items[i].amount);
    GrownStep(entries0, next0, db.entries, db.recipes[id].ingredients, db.nextEntryId, row);
    AttachOne(db, id, row);
    assert Built(items[..i + 1]) == Built(items[..i]) + [row];
  }

  /**
   * create: make the recipe row with the given author, set its tags, then
   * create and attach one ingredient-quantity row per input item. Nothing is
   * undone when the database refuses an item: the recipe stays, with the rows
   * made before that item.
   */
  method Create(db: Database.Store, author: UserId, input: RecipeInput, now: int) returns (r: Result<RecipeId>)
    requires db.Valid() && InputValid(db.ingredients, db.tags, input)
    modifies db`entries, db`nextEntryId, db`recipes, db`nextRecipeId
    ensures db.Valid()
    ensures r.Ok? <==> Accepted(input.items) == |input.items|
    ensures r.Ok? ==> r.value == old(db.nextRecipeId)
    ensures r.Err? ==> r.error == IntegrityError
    ensures old(db.nextRecipeId) !in old(db.recipes)
    ensures db.recipes.Keys == old(db.recipes.Keys) + {old(db.nextRecipeId)}
    ensures forall k :: k in old(db.recipes) ==> db.recipes[k] == old(db.recipes[k])
    ensures var rec := db.recipes[old(db.nextRecipeId)];
            && rec.author == author && rec.name == input.name && rec.image == input.image
            && rec.text == input.text && rec.cookingTime == input.cookingTime && rec.pubDate == now
            && rec.tags == input.tags
    ensures RecipeEntries(db, old(db.nextRecipeId)) == Built(input.items[..Accepted(input.items)])
    ensures forall e :: e in old(db.entries) ==> e in db.entries && db.entries[e] == old(db.entries[e])
    ensures db.entries.Keys == old(db.entries.Keys) + KeysOf(db.recipes[old(db.nextRecipeId)].ingredients)
  {
    var id := InsertTagged(db, Recipe(author, input.name, input.image, input.text, [], input.tags, input.cookingTime, now));
    var ok := AttachEntries(db, id, input.items);
    r := if ok then Ok(id) else Err(IntegrityError);
  }

  /** `Recipies.objects.create(...)`: a recipe row with no tags and no ingredient rows, under the next key. */
  method InsertRecipe(db: Database.Store, rec: Recipe) returns (id: RecipeId)
    requires db.Valid() && rec.cookingTime >= 1 && rec.tags == {} && rec.ingredients == []
    modifies db`recipes, db`nextRecipeId
    ensures db.Valid()
    ensures id == old(db.nextRecipeId) && id !in old(db.recipes)
    ensures db.recipes == old(db.recipes)[id := rec]
    ensures db.entries == old(db.entries) && db.nextEntryId == old(db.nextEntryId)
    ensures db.users == old(db.users) && db.ingredients == old(db.ingredients) && db.tags == old(db.tags)
    ensures db.favorites == old(db.favorites) && db.carts == old(db.carts) && db.follows == old(db.follows)
  {
    id := db.nextRecipeId;
    db.nextRecipeId := id + 1;
    db.recipes := db.recipes[id := rec];
  }

  /** The first two steps of create: insert the recipe row without tags, then set its tags. */
  method InsertTagged(db: Database.Store, rec: Recipe) returns (id: RecipeId)
    requires db.Valid() && rec.cookingTime >= 1 && rec.tags <= db.tags.Keys && rec.ingredients == []
    modifies db`recipes, db`nextRecipeId
    ensures db.Valid()
    ensures id == old(db.nextRecipeId) && id !in old(db.recipes)
    ensures db.recipes == old(db.recipes)[id := rec]
    ensures RecipeEntries(db, id) == []
  {
    id := InsertRecipe(db, rec.(tags := {}));
    SetTags(db, id, rec.tags);
  }

  /** `tag.set(tags)`: the recipe's tag set becomes exactly `tags`. */
  method SetTags(db: Database.Store, id: RecipeId, tags: set<TagId>)
    requires db.Valid() && id in db.recipes && tags <= db.tags.Keys
    modifies db`recipes
    ensures db.Valid()
    ensures db.recipes == old(db.recipes)[id := old(db.recipes[id]).(tags := tags)]
    ensures RecipeEntries(db, id) == old(RecipeEntries(db, id))
    ensures db.entries == old(db.entries)
    ensures db.favorites == old(db.favorites) && db.carts == old(db.carts) && db.follows == old(db.follows)
  {
    db.recipes := db.recipes[id := db.recipes[id].(tags := tags)];
  }

  /** The plain-field part of update: the fields the data carries are written and the save refreshes the publication date. */
  method WriteFields(db: Database.Store, id: RecipeId, ch: RecipeChanges, now: int)
    requires db.Valid() && id in db.recipes && (ch.cookingTime.Some? ==> ch.cookingTime.value >= 1)
    modifies db`recipes
    ensures db.Valid()
    ensures db.recipes == old(db.recipes)[id := Patched(old(db.recipes[id]), ch, now)]
    ensures db.entries == old(db.entries)
    ensures db.favorites == old(db.favorites) && db.carts == old(db.carts) && db.follows == old(db.follows)
  {
    PatchKeepsValid(db.recipes[id], ch, now, db.tags);
    db.recipes := db.recipes[id := Patched(db.recipes[id], ch, now)];
  }

  /**
   * Deleting every ingredient-quantity row linked to recipe `id`; the
   * recipe's links to them go with them.
   */
  method DeleteEntries(db: Database.Store, id: RecipeId)
    requires db.Valid() && id in db.recipes
    modifies db`entries, db`recipes
    ensures db.Valid()
    ensures db.recipes == old(db.recipes)[id := old(db.recipes[id]).(ingredients := [])]
    ensures db.entries == old(db.entries) - KeysOf(old(db.recipes[id].ingredients))
    ensures db.favorites == old(db.favorites) && db.carts == old(db.carts) && db.follows == old(db.follows)
  {
    DetachAll(db.recipes, db.entries, db.ingredients, db.nextEntryId, id);
    db.entries := db.entries - KeysOf(db.recipes[id].ingredients);
    db.recipes := db.recipes[id := db.recipes[id].(ingredients := [])];
  }

  /** The first two steps of update: write the plain fields, then delete the recipe's ingredient-quantity rows. */
  method Rewrite(db: Database.Store, id: RecipeId, ch: RecipeChanges, now: int)
    requires db.Valid() && id in db.recipes && (ch.cookingTime.Some? ==> ch.cookingTime.value >= 1)
    modifies db`entries, db`recipes
    ensures db.Valid()
    ensures db.recipes == old(db.recipes)[id := Patched(old(db.recipes[id]), ch, now).(ingredients := [])]
    ensures RecipeEntries(db, id) == []
    ensures db.entries == old(db.entries) - KeysOf(old(db.recipes[id].ingredients))
    ensures db.entries.Keys == old(db.entries.Keys) - KeysOf(old(db.recipes[id].ingredients))
    ensures forall e :: e in old(db.recipes[id].ingredients) ==> e !in db.entries && e < db.nextEntryId
    ensures db.favorites == old(db.favorites) && db.carts == old(db.carts) && db.follows == old(db.follows)
  {
    WriteFields(db, id, ch, now);
    DeleteEntries(db, id);
  }

  /**
   * update: pop the ingredient items and the tags from the validated data
   * (a partial update that leaves either out fails there with nothing
   * written), then rewrite the recipe with them.
   */
  method Update(db: Database.Store, id: RecipeId, ch: RecipeChanges, now: int) returns (r: Result<RecipeId>)
    requires db.Valid() && id in db.recipes && ChangesValid(db.ingredients, db.tags, ch)
    modifies db
    ensures db.Valid()
    ensures r == Err(KeyError) <==> ch.items.None? || ch.tags.None?
    ensures ch.items.None? || ch.tags.None? ==> unchanged(db)
    ensures ch.items.Some? && ch.tags.Some? ==> (r.Ok? <==> Accepted(ch.items.value) == |ch.items.value|)
    ensures r.Ok? ==> r.value == id
    ensures r.Err? ==> r.error == KeyError || r.error == IntegrityError
    ensures db.recipes.Keys == old(db.recipes.Keys)
    ensures forall k :: k in db.recipes && k != id ==> db.recipes[k] == old(db.recipes[k])
    ensures ch.items.Some? && ch.tags.Some? ==>
              db.recipes[id] == Patched(old(db.recipes[id]), ch, now).(ingredients := db.recipes[id].ingredients,
                                                                       tags := if r.Ok? then ch.tags.value else old(db.recipes[id].tags))
    ensures ch.items.Some? && ch.tags.Some? ==>
              forall e :: e in old(db.recipes[id].ingredients) ==> e !in db.entries && e !in db.recipes[id].ingredients
    ensures ch.items.Some? && ch.tags.Some? ==>
              RecipeEntries(db, id) == Built(ch.items.value[..Accepted(ch.items.value)])
    ensures ch.items.Some? && ch.tags.Some? ==>
              db.entries.Keys == (old(db.entries.Keys) - KeysOf(old(db.recipes[id].ingredients))) + KeysOf(db.recipes[id].ingredients)
    ensures forall e :: e in old(db.entries) && e !in old(db.recipes[id].ingredients) ==>
              e in db.entries && db.entries[e] == old(db.entries[e])
    ensures db.users == old(db.users) && db.ingredients == old(db.ingredients) && db.tags == old(db.tags)
    ensures db.favorites == old(db.favorites) && db.carts == old(db.carts) && db.follows == old(db.follows)
  {
    if ch.items.None? || ch.tags.None? {
      return Err(KeyError);
    }
    var ok := Replace(db, id, ch, ch.items.value, ch.tags.value, now);
    r := if ok then Ok(id) else Err(IntegrityError);
  }

  /**
   * The rest of update once the items and the tags are in hand: write the
   * plain fields the data carries (the save refreshes the publication
   * date), delete every ingredient-quantity row of the recipe, create and
   * attach one row per item, and only then replace the tag set. When the
   * database refuses an item the steps before it stay done and the tag set
   * is the old one.
   */
  method Replace(db: Database.Store, id: RecipeId, ch: RecipeChanges, items: seq<IngredientInput>, tags: set<TagId>, now: int)
    returns (ok: bool)
    requires db.Valid() && id in db.recipes && ChangesValid(db.ingredients, db.tags, ch)
    requires ch.items == Some(items) && ch.tags == Some(tags)
    modifies db`entries, db`nextEntryId, db`recipes
    ensures db.Valid()
    ensures ok <==> Accepted(items) == |items|
    ensures db.recipes.Keys == old(db.recipes.Keys)
    ensures forall k :: k in db.recipes && k != id ==> db.recipes[k] == old(db.recipes[k])
    ensures db.recipes[id] == Patched(old(db.recipes[id]), ch, now).(ingredients := db.recipes[id].ingredients,
                                                                     tags := if ok then tags else old(db.recipes[id].tags))
    ensures forall e :: e in old(db.recipes[id].ingredients) ==> e !in db.entries && e !in db.recipes[id].ingredients
    ensures RecipeEntries(db, id) == Built(items[..Accepted(items)])
    ensures db.entries.Keys == (old(db.entries.Keys) - KeysOf(old(db.recipes[id].ingredients))) + KeysOf(db.recipes[id].ingredients)
    ensures forall e :: e in old(db.entries) && e !in old(db.recipes[id].ingredients) ==>
              e in db.entries && db.entries[e] == old(db.entries[e])
    ensures db.favorites == old(db.favorites) && db.carts == old(db.carts) && db.follows == old(db.follows)
  {
    ghost var entries, gone := db.entries, db.recipes[id].ingredients;
    Rewrite(db, id, ch, now);
    ghost var next := db.nextEntryId;
    ok := Refill(db, id, items, tags);
    ShrunkThenGrown(entries, gone, next, db.entries, db.recipes[id].ingredients);
  }

  /** The last two steps of update: attach the new rows, then set the tags if every row was accepted. */
  method Refill(db: Database.Store, id: RecipeId, items: seq<IngredientInput>, tags: set<TagId>) returns (ok: bool)
    requires db.Valid() && id in db.recipes && tags <= db.tags.Keys
    requires forall i :: 0 <= i < |items| ==> items[i].id in db.ingredients
    modifies db`entries, db`nextEntryId, db`recipes
    ensures db.Valid()
    ensures ok <==> Accepted(items) == |items|
    ensures db.recipes.Keys == old(db.recipes.Keys)
    ensures forall k :: k in db.recipes && k != id ==> db.recipes[k] == old(db.recipes[k])
    ensures db.recipes[id] == old(db.recipes[id]).(ingredients := db.recipes[id].ingredients,
                                                   tags := if ok then tags else old(db.recipes[id].tags))
    ensures RecipeEntries(db, id) == old(RecipeEntries(db, id)) + Built(items[..Accepted(items)])
    ensures Grown(old(db.entries), old(db.nextEntryId), db.entries, db.recipes[id].ingredients)
    ensures db.favorites == old(db.favorites) && db.carts == old(db.carts) && db.follows == old(db.follows)
  {
    ok := AttachEntries(db, id, items);
    if ok {
      SetTags(db, id, tags);
    }
  }

  /** The author's recipes, in table order: the `recipes` relation of a user. */
  function Authored(table: seq<Recipe>, author: UserId): (rs: seq<Recipe>)
    ensures forall i :: 0 <= i < |rs| ==> rs[i].author == author
    ensures forall x: Recipe :: x.author == author ==> multiset(rs)[x] == multiset(table)[x]
    ensures forall x: Recipe :: x.author != author ==> multiset(rs)[x] == 0
  {
    if table == [] then []
    else
      assert table == [table[0]] + table[1..];
      if table[0].author == author then [table[0]] + Authored(table[1..], author)
      else Authored(table[1..], author)
  }

  /** get_recipes_count: a count query over the recipe table for one author. */
  function GetRecipesCount(table: seq<Recipe>, author: UserId): (n: nat)
    ensures n <= |table|
  {
    if table == [] then 0
    else (if table[0].author == author then 1 else 0) + GetRecipesCount(table[1..], author)
  }

  /** The count query and the author's recipe listing agree on how many recipes there are. */
  lemma {:induction false} CountIsListingLength(table: seq<Recipe>, author: UserId)
    ensures GetRecipesCount(table, author) == |Authored(table, author)|
  {
    if table != [] {
      CountIsListingLength(table[1..], author);
    }
  }

  /** A prefix of a newest-first listing is newest first, and no recipe it leaves out is newer. */
  lemma PrefixKeepsOrder(listing: seq<Recipe>, author: UserId, n: nat)
    requires NewestFirst(listing) && n <= |listing|
    requires forall i :: 0 <= i < |listing| ==> listing[i].author == author
    ensures var p := listing[..n];
            && p <= listing && |p| == n && NewestFirst(p)
            && (forall i :: 0 <= i < |p| ==> p[i].author == author)
            && (forall i, j :: 0 <= i < |p| <= j < |listing| ==> p[i].pubDate >= listing[j].pubDate)
  {
  }

  /** The author's recipes in the model's default ordering, newest first. */
  function AuthorListing(table: seq<Recipe>, author: UserId): (listing: seq<Recipe>)
    ensures NewestFirst(listing)
    ensures multiset(listing) == multiset(Authored(table, author))
    ensures |listing| == |Authored(table, author)|
    ensures forall i :: 0 <= i < |listing| ==> listing[i].author == author
  {
    var listing := OrderByNewest(Authored(table, author));
    assert |multiset(listing)| == |multiset(Authored(table, author))|;
    forall i | 0 <= i < |listing| ensures listing[i].author == author {
      assert listing[i] in multiset(listing);
    }
    listing
  }

  /**
   * get_recipes: the author's recipes newest first, cut to the first
   * `recipes_limit` when that parameter is given. A negative limit makes the
   * slice fail.
   */
  function GetRecipes(table: seq<Recipe>, author: UserId, limit: Option<int>): (r: Result<seq<Recipe>>)
    ensures r.Err? <==> limit.Some? && limit.value < 0
    ensures r.Err? ==> r.error == ValueError
    ensures r.Ok? ==>
              var listing := AuthorListing(table, author);
              && r.value <= listing
              && |r.value| == (if limit.None? || limit.value >= |listing| then |listing| else limit.value)
              && NewestFirst(r.value)
              && (forall i :: 0 <= i < |r.value| ==> r.value[i].author == author)
              && (forall i, j :: 0 <= i < |r.value| <= j < |listing| ==> r.value[i].pubDate >= listing[j].pubDate)
  {
    var listing := AuthorListing(table, author);
    if limit.Some? && limit.value < 0 then Err(ValueError)
    else
      var k := if limit.None? || limit.value >= |listing| then |listing| else limit.value;
      PrefixKeepsOrder(listing, author, k);
      Ok(listing[..k])
  }

  /** A subscription never shows more recipes than the author's count, and shows all of them without a limit. */
  lemma ListingWithinCount(table: seq<Recipe>, author: UserId, limit: Option<int>)
    requires limit.None? || limit.value >= 0
    ensures |GetRecipes(table, author, limit).value| <= GetRecipesCount(table, author)
    ensures limit.None? ==> |GetRecipes(table, author, limit).value| == GetRecipesCount(table, author)
  {
    CountIsListingLength(table, author);
  }

  /**
   * The follow validation: refuses following oneself and following an author
   * already followed, and otherwise passes the data through.
   */
  function ValidateSubscribe(follows: seq<FollowEdge>, user: UserId, author: UserId): (r: Result<FollowEdge>)
    ensures r.Ok? <==> user != author && FollowEdge(user, author) !in follows
    ensures r.Ok? ==> r.value == FollowEdge(user, author)
    ensures r.Err? ==> r.error.ValidationError?
    ensures user == author ==> r == Err(ValidationError("You cant follow user."))
    ensures user != author && FollowEdge(user, author) in follows ==> r == Err(ValidationError("This author is followed."))
  {
    if user == author then Err(ValidationError("You cant follow user."))
    else if Contains(follows, FollowEdge(user, author)) then Err(ValidationError("This author is followed."))
    else Ok(FollowEdge(user, author))
  }
}

=== FILE: shopping_list.dfy ===
/**
 * The shopping-list query behind download_shopping_cart: take every
 * ingredient-quantity row of every recipe in the user's cart, group the rows
 * by (ingredient name, measurement unit) and sum their amounts. Rendering the
 * result as a PDF is outside the model.
 */
module ShoppingList {
  import opened Common
  import opened RecipeModels
  import opened Database

  /** One row of the query: ingredient name, measurement unit, amount. */
  datatype Line = Line(name: string, unit: string, amount: int)

  predicate Matches(l: Line, name: string, unit: string) {
    l.name == name && l.unit == unit
  }

  /** The sum of the amounts of the rows with this name and unit. */
  function Total(rows: seq<Line>, name: string, unit: string): int {
    if rows == [] then 0
    else (if Matches(rows[0], name, unit) then rows[0].amount else 0) + Total(rows[1..], name, unit)
  }

  /** Some row has this name and unit. */
  predicate HasKey(lines: seq<Line>, name: string, unit: string) {
    lines != [] && (Matches(lines[0], name, unit) || HasKey(lines[1..], name, unit))
  }

  /** The amount on the first line with this name and unit, or 0 when there is none. */
  function Amount(lines: seq<Line>, name: string, unit: string): int {
    if lines == [] then 0
    else if Matches(lines[0], name, unit) then lines[0].amount
    else Amount(lines[1..], name, unit)
  }

  /** No two lines share a name and unit. */
  predicate DistinctKeys(lines: seq<Line>) {
    lines == [] || (!HasKey(lines[1..], lines[0].name, lines[0].unit) && DistinctKeys(lines[1..]))
  }

  /** Adds one row into a grouped list: onto the line with its key, or as a new last line. */
  function Merge(acc: seq<Line>, l: Line): (r: seq<Line>)
    ensures forall n, u :: Amount(r, n, u) == Amount(acc, n, u) + (if Matches(l, n, u) then l.amount else 0)
    ensures forall n, u :: HasKey(r, n, u) <==> HasKey(acc, n, u) || Matches(l, n, u)
    ensures DistinctKeys(acc) ==> DistinctKeys(r)
  {
    if acc == [] then
      assert forall n, u :: !HasKey([l][1..], n, u);
      [l]
    else if Matches(acc[0], l.name, l.unit) then
      var r := [acc[0].(amount := acc[0].amount + l.amount)] + acc[1..];
      assert r[1..] == acc[1..];
      r
    else
      var rest := Merge(acc[1..], l);
      var r := [acc[0]] + rest;
      assert r[1..] == rest;
      r
  }

  /** Groups `rows` into `acc`, row by row. */
  function GroupInto(acc: seq<Line>, rows: seq<Line>): (r: seq<Line>)
    ensures forall n, u :: Amount(r, n, u) == Amount(acc, n, u) + Total(rows, n, u)
    ensures forall n, u :: HasKey(r, n, u) <==> HasKey(acc, n, u) || HasKey(rows, n, u)
    ensures DistinctKeys(acc) ==> DistinctKeys(r)
    decreases rows
  {
    if rows == [] then acc
    else GroupInto(Merge(acc, rows[0]), rows[1..])
  }

  /**
   * The `values(name, unit).annotate(Sum(amount))` step: one line per
   * distinct (name, unit) among the rows, carrying the sum of their amounts.
   */
  function GroupSum(rows: seq<Line>): (out: seq<Line>)
    ensures DistinctKeys(out)
    ensures forall n, u :: HasKey(out, n, u) <==> HasKey(rows, n, u)
    ensures forall n, u :: Amount(out, n, u) == Total(rows, n, u)
    ensures rows == [] ==> out == []
  {
    GroupInto([], rows)
  }

  /** In a list without repeated keys, a line's amount is the amount its key looks up. */
  lemma {:induction false} LineIsLookup(lines: seq<Line>, i: nat)
    requires DistinctKeys(lines) && i < |lines|
    ensures Amount(lines, lines[i].name, lines[i].unit) == lines[i].amount
  {
    if i > 0 {
      LineIsLookup(lines[1..], i - 1);
      assert lines[1..][i - 1] == lines[i];
      if Matches(lines[0], lines[i].name, lines[i].unit) {
        KeyAtIndex(lines[1..], i - 1);
        assert false;
      }
    }
  }

  /** The key of any line of a list occurs in it. */
  lemma {:induction false} KeyAtIndex(lines: seq<Line>, i: nat)
    requires i < |lines|
    ensures HasKey(lines, lines[i].name, lines[i].unit)
  {
    if i > 0 {
      KeyAtIndex(lines[1..], i - 1);
      assert lines[1..][i - 1] == lines[i];
    }
  }

  /** Every line of the grouped list carries the total of all rows with its name and unit. */
  lemma EachLineIsTotal(rows: seq<Line>, i: nat)
    requires i < |GroupSum(rows)|
    ensures GroupSum(rows)[i].amount == Total(rows, GroupSum(rows)[i].name, GroupSum(rows)[i].unit)
  {
    LineIsLookup(GroupSum(rows), i);
  }

  /** The rows one recipe contributes: one per ingredient-quantity row it lists. */
  function RecipeLines(ids: seq<EntryId>, entries: map<EntryId, IngredientEntry>,
                       ingredients: map<IngredientId, Ingredient>): (ls: seq<Line>)
    ensures |ls| <= |ids|
    ensures (forall i :: 0 <= i < |ids| ==> ids[i] in entries && entries[ids[i]].ingredient in ingredients) ==> |ls| == |ids|
  {
    if ids == [] then []
    else
      var head :=
        if ids[0] in entries && entries[ids[0]].ingredient in ingredients then
          var e := entries[ids[0]];
          [Line(ingredients[e.ingredient].name, ingredients[e.ingredient].measurementUnit, e.amount)]
        else [];
      head + RecipeLines(ids[1..], entries, ingredients)
  }

  /**
   * The joined rows of the query: for each shopping-cart row of `user`, the
   * rows of that recipe. A recipe in the cart twice would be counted twice.
   */
  function CartLines(carts: seq<Pair>, user: UserId, recipes: map<RecipeId, Recipe>,
                     entries: map<EntryId, IngredientEntry>, ingredients: map<IngredientId, Ingredient>): (ls: seq<Line>)
    ensures (forall i :: 0 <= i < |carts| ==> carts[i].user != user) ==> ls == []
  {
    if carts == [] then []
    else
      var head :=
        if carts[0].user == user && carts[0].recipe in recipes
        then RecipeLines(recipes[carts[0].recipe].ingredients, entries, ingredients)
        else [];
      head + CartLines(carts[1..], user, recipes, entries, ingredients)
  }

  /** download_shopping_cart up to the PDF step: the grouped list of the user's cart. */
  function DownloadShoppingCart(db: Database.Store, user: UserId): (out: seq<Line>)
    reads db
    ensures DistinctKeys(out)
    ensures forall n, u :: Amount(out, n, u) == Total(CartLines(db.carts, user, db.recipes, db.entries, db.ingredients), n, u)
  {
    GroupSum(CartLines(db.carts, user, db.recipes, db.entries, db.ingredients))
  }

  /**
   * The shopping list has one line per distinct (name, unit) among the
   * user's cart rows, each carrying the sum over all contributing rows; an
   * empty cart gives an empty list.
   */
  lemma ShoppingListIsGroupedSum(db: Database.Store, user: UserId)
    ensures var rows := CartLines(db.carts, user, db.recipes, db.entries, db.ingredients);
            var out := DownloadShoppingCart(db, user);
            && DistinctKeys(out)
            && (forall n, u :: HasKey(out, n, u) <==> HasKey(rows, n, u))
            && (forall i :: 0 <= i < |out| ==> out[i].amount == Total(rows, out[i].name, out[i].unit))
            && ((forall i :: 0 <= i < |db.carts| ==> db.carts[i].user != user) ==> out == [])
  {
    var rows := CartLines(db.carts, user, db.recipes, db.entries, db.ingredients);
    forall i | 0 <= i < |GroupSum(rows)| ensures GroupSum(rows)[i].amount == Total(rows, GroupSum(rows)[i].name, GroupSum(rows)[i].unit) {
      EachLineIsTotal(rows, i);
    }
  }

  /** Recipe A has 200 g of flour, recipe B 300 g of flour and 50 g of sugar: the list is 500 g flour, 50 g sugar. */
  lemma FlourAndSugar()
    ensures GroupSum([Line("flour", "g", 200), Line("flour", "g", 300), Line("sugar", "g", 50)])
         == [Line("flour", "g", 500), Line("sugar", "g", 50)]
  {
    var a, b, c := Line("flour", "g", 200), Line("flour", "g", 300), Line("sugar", "g", 50);
    var flour := Line("flour", "g", 500);
    assert [a, b, c][1..] == [b, c] && [b, c][1..] == [c] && [c][1..] == [];
    assert Merge([], a) == [a];
    assert Merge([a], b) == [flour];
    assert Merge([flour], c) == [flour] + Merge([], c);
    calc {
      GroupSum([a, b, c]);
      GroupInto(Merge([], a), [b, c]);
      GroupInto(Merge([a], b), [c]);
      GroupInto(Merge([flour], c), []);
      [flour, c];
    }
  }
}

=== FILE: tables.dfy ===
/**
 * A database table without a uniqueness constraint, seen as the sequence of
 * its rows in insertion order. Rows may repeat unless the code that inserts
 * them checks first.
 */
module Tables {

  /** No row occurs twice. */
  predicate Distinct<T(==)>(s: seq<T>) {
    forall i, j :: 0 <= i < j < |s| ==> s[i] != s[j]
  }

  /** The `.filter(...).exists()` query: a scan for a matching row. */
  function Contains<T(==)>(s: seq<T>, x: T): (b: bool)
    ensures b <==> x in s
  {
    if s == [] then false
    else if s[0] == x then true
    else
      assert s == [s[0]] + s[1..];
      Contains(s[1..], x)
  }

  /** Deleting the first row equal to `x` (the table is unchanged when there is none). */
  function Remove<T(==)>(s: seq<T>, x: T): (r: seq<T>)
    ensures multiset(r) == multiset(s) - multiset{x}
    ensures |r| == if x in s then |s| - 1 else |s|
  {
    if s == [] then []
    else
      assert s == [s[0]] + s[1..];
      if s[0] == x then s[1..]
      else [s[0]] + Remove(s[1..], x)
  }

  /** Appending a row and deleting it again gives back the table, when the row was new. */
  lemma {:induction false} RemoveAppended<T>(s: seq<T>, x: T)
    requires x !in s
    ensures Remove(s + [x], x) == s
  {
    if s != [] {
      assert (s + [x])[0] == s[0];
      assert (s + [x])[1..] == s[1..] + [x];
      RemoveAppended(s[1..], x);
    }
  }

  /** Appending a row that is not there keeps the table free of repeats. */
  lemma DistinctAppend<T>(s: seq<T>, x: T)
    requires Distinct(s) && x !in s
    ensures Distinct(s + [x])
  {
  }

  /** Deleting a row keeps the table free of repeats, and the row is then gone. */
  lemma {:induction false} DistinctRemove<T>(s: seq<T>, x: T)
    requires Distinct(s)
    ensures Distinct(Remove(s, x))
    ensures x !in Remove(s, x)
  {
    if s != [] {
      assert s == [s[0]] + s[1..];
      if s[0] == x {
        assert x !in s[1..];
      } else {
        DistinctRemove(s[1..], x);
        var t := Remove(s[1..], x);
        assert s[0] !in t by {
          assert multiset(t) <= multiset(s[1..]);
          assert s[0] !in multiset(s[1..]);
        }
        assert Remove(s, x) == [s[0]] + t;
      }
    }
  }

  /** In a table without repeats a row occurs at most once. */
  lemma {:induction false} DistinctCount<T>(s: seq<T>, x: T)
    requires Distinct(s)
    ensures multiset(s)[x] <= 1
  {
    if s != [] {
      assert s == [s[0]] + s[1..];
      DistinctCount(s[1..], x);
      if s[0] == x {
        assert x !in s[1..];
      }
    }
  }
}

=== FILE: user_models.dfy ===
/**
 * The custom user model: its three roles, the moderator and admin checks
 * (the admin check writes the staff flag when it reads it), the ban on the
 * username "me", and the follow table.
 */
module UserModels {
  import opened Common

  /** The three entries of ALLOWED_ROLES. */
  datatype Role = ModeratorRole | AdminRole | UserRole

  /** The value stored in the role column for each role. */
  function RoleValue(r: Role): string {
    match r
    case ModeratorRole => "moderator"
    case AdminRole => "admin"
    case UserRole => "user"
  }

  /** What the staff flag is after is_admin_or_superuser has been read once. */
  function StaffAfterRead(role: Role, isSuperuser: bool, isStaff: bool): (staff: bool)
    ensures role == AdminRole || isSuperuser ==> staff
    ensures !(role == AdminRole || isSuperuser) ==> staff == isStaff
  {
    if role == AdminRole || isSuperuser then true else isStaff
  }

  /** Reading is_admin_or_superuser a second time gives the same answer and changes nothing more. */
  lemma ReadIsIdempotent(role: Role, isSuperuser: bool, isStaff: bool)
    ensures StaffAfterRead(role, isSuperuser, StaffAfterRead(role, isSuperuser, isStaff))
         == StaffAfterRead(role, isSuperuser, isStaff)
  {
  }

  class User {
    const id: UserId
    var username: string
    var role: Role
    var isSuperuser: bool
    var isStaff: bool

    constructor (id: UserId, username: string, role: Role, isSuperuser: bool, isStaff: bool)
      ensures this.id == id && this.username == username && this.role == role
      ensures this.isSuperuser == isSuperuser && this.isStaff == isStaff
    {
      this.id := id;
      this.username := username;
      this.role := role;
      this.isSuperuser := isSuperuser;
      this.isStaff := isStaff;
    }

    /** The is_moderator property: the stored role string is "moderator". */
    predicate IsModerator()
      reads this
      ensures IsModerator() <==> role == ModeratorRole
    {
      RoleValue(role) == "moderator"
    }

    /**
     * The is_admin_or_superuser property. Reading it sets the staff flag when
     * the user is an admin or a superuser, and answers with the staff flag.
     */
    method IsAdminOrSuperuser() returns (b: bool)
      modifies this`isStaff
      ensures isStaff == StaffAfterRead(role, isSuperuser, old(isStaff))
      ensures b == isStaff
      ensures role == AdminRole || isSuperuser ==> b
      ensures !(role == AdminRole || isSuperuser) ==> b == old(isStaff) && isStaff == old(isStaff)
    {
      if RoleValue(role) == "admin" || isSuperuser {
        isStaff := true;
      }
      b := isStaff;
    }
  }

  /**
   * Outcome of clean_fields. `inherited` is the outcome of the framework's
   * own field validation, which runs first and whose error propagates; after
   * it passes, the username "me" is refused.
   */
  function CleanFields(inherited: Result<()>, username: string): (r: Result<()>)
    ensures r.Err? <==> inherited.Err? || username == "me"
    ensures inherited.Err? ==> r == inherited
    ensures inherited.Ok? && r.Err? ==> r.error.ValidationError?
  {
    if inherited.Err? then inherited
    else if username == "me" then Err(ValidationError("Имя me запрещено."))
    else Ok(())
  }
}

=== FILE: views.dfy ===
/**
 * The recipe and follow views: the generic add/delete of a user-recipe
 * relation row behind the favorite and shopping_cart actions, the choice of
 * serializer, recipe creation on behalf of the requester, the subscriptions
 * listing, and following and unfollowing an author. Each view that writes is
 * a method on the store, specified by a pure step function on the table it
 * changes.
 */
module Views {
  import opened Common
  import opened Tables
  import opened RecipeModels
  import opened Database
  import Serializers

  /** What a view answers and what the table it writes holds afterwards. */
  datatype Step<T> = Step(reply: Result<Reply>, rows: seq<T>)

  /**
   * add_recipe: the recipe must exist (else not found); an existing row for
   * (user, recipe) is refused; otherwise one row is inserted and the reply is
   * 201 with the recipe's RecipeSerializer rendering (id, name, image,
   * cooking time).
   */
  function AddStep(recipes: map<RecipeId, Recipe>, rows: seq<Pair>, user: UserId, pk: RecipeId): (t: Step<Pair>)
    ensures pk !in recipes ==> t == Step(Err(NotFound), rows)
    ensures pk in recipes && Pair(user, pk) in rows ==> t == Step(Err(ValidationError("Object exists.")), rows)
    ensures t.reply.Ok? <==> pk in recipes && Pair(user, pk) !in rows
    ensures t.reply.Ok? ==>
              && t.reply.value == Created(RecipeSummary(pk, recipes[pk].name, recipes[pk].image, recipes[pk].cookingTime))
              && Status(t.reply) == 201
              && t.rows == rows + [Pair(user, pk)]
  {
    if pk !in recipes then Step(Err(NotFound), rows)
    else if Contains(rows, Pair(user, pk)) then Step(Err(ValidationError("Object exists.")), rows)
    else Step(Ok(Created(RecipeSummary(pk, recipes[pk].name, recipes[pk].image, recipes[pk].cookingTime))), rows + [Pair(user, pk)])
  }

  /**
   * delete_recipe: the recipe must exist and the (user, recipe) row must
   * exist (else not found); the row is deleted and the reply is 204. The
   * lookup expects one row and fails when the table holds several.
   */
  function DeleteStep(recipes: map<RecipeId, Recipe>, rows: seq<Pair>, user: UserId, pk: RecipeId): (t: Step<Pair>)
    ensures t.reply.Ok? <==> pk in recipes && multiset(rows)[Pair(user, pk)] == 1
    ensures pk !in recipes || Pair(user, pk) !in rows ==> t == Step(Err(NotFound), rows)
    ensures t.reply.Err? ==> t.rows == rows
    ensures t.reply.Ok? ==>
              && t.reply.value == NoContent && Status(t.reply) == 204
              && multiset(t.rows) == multiset(rows) - multiset{Pair(user, pk)}
              && Pair(user, pk) !in t.rows
  {
    var p := Pair(user, pk);
    if pk !in recipes || !Contains(rows, p) then Step(Err(NotFound), rows)
    else if multiset(rows)[p] > 1 then Step(Err(MultipleObjectsReturned), rows)
    else
      var rows' := Remove(rows, p);
      assert p !in multiset(rows');
      Step(Ok(NoContent), rows')
  }

  /** A successful add followed by a delete of the same row gives back the table and answers 204. */
  lemma AddThenDeleteRestores(recipes: map<RecipeId, Recipe>, rows: seq<Pair>, user: UserId, pk: RecipeId)
    requires AddStep(recipes, rows, user, pk).reply.Ok?
    ensures DeleteStep(recipes, AddStep(recipes, rows, user, pk).rows, user, pk) == Step(Ok(NoContent), rows)
  {
    var p := Pair(user, pk);
    var after := rows + [p];
    assert AddStep(recipes, rows, user, pk).rows == after;
    assert p !in multiset(rows);
    assert multiset(after)[p] == 1 by {
      assert multiset(after) == multiset(rows) + multiset{p};
    }
    assert Contains(after, p);
    RemoveAppended(rows, p);
  }

  /** Adding the same row twice: the second add is refused and changes nothing. */
  lemma SecondAddFails(recipes: map<RecipeId, Recipe>, rows: seq<Pair>, user: UserId, pk: RecipeId)
    requires AddStep(recipes, rows, user, pk).reply.Ok?
    ensures var after := AddStep(recipes, rows, user, pk).rows;
            AddStep(recipes, after, user, pk) == Step(Err(ValidationError("Object exists.")), after)
  {
    var after := AddStep(recipes, rows, user, pk).rows;
    assert Pair(user, pk) in multiset(after);
  }

  /** Deleting the same row twice from a table without repeats: the second delete is not found. */
  lemma SecondDeleteFails(recipes: map<RecipeId, Recipe>, rows: seq<Pair>, user: UserId, pk: RecipeId)
    requires DeleteStep(recipes, rows, user, pk).reply.Ok?
    ensures var after := DeleteStep(recipes, rows, user, pk).rows;
            DeleteStep(recipes, after, user, pk) == Step(Err(NotFound), after)
  {
  }

  /** Neither step puts a repeated row into a table that had none. */
  lemma StepsKeepDistinct(recipes: map<RecipeId, Recipe>, rows: seq<Pair>, user: UserId, pk: RecipeId)
    requires Distinct(rows)
    ensures Distinct(AddStep(recipes, rows, user, pk).rows)
    ensures Distinct(DeleteStep(recipes, rows, user, pk).rows)
  {
    if AddStep(recipes, rows, user, pk).reply.Ok? {
      DistinctAppend(rows, Pair(user, pk));
    }
    DistinctRemove(rows, Pair(user, pk));
  }

  /** In a table without repeats a delete of a present row never meets several rows. */
  lemma DeletePresentSucceeds(recipes: map<RecipeId, Recipe>, rows: seq<Pair>, user: UserId, pk: RecipeId)
    requires Distinct(rows) && pk in recipes && Pair(user, pk) in rows
    ensures DeleteStep(recipes, rows, user, pk).reply == Ok(NoContent)
  {
    DistinctCount(rows, Pair(user, pk));
  }

  /** The recipe flags follow the toggles: after an add the requester's flag is set, after a delete it is clear. */
  lemma FlagFollowsToggle(recipes: map<RecipeId, Recipe>, rows: seq<Pair>, user: UserId, pk: RecipeId)
    ensures AddStep(recipes, rows, user, pk).reply.Ok? ==> Serializers.HasRow(AddStep(recipes, rows, user, pk).rows, Some(user), pk)
    ensures DeleteStep(recipes, rows, user, pk).reply.Ok? ==> !Serializers.HasRow(DeleteStep(recipes, rows, user, pk).rows, Some(user), pk)
    ensures AddStep(recipes, rows, user, pk).reply.Err? ==>
              Serializers.HasRow(AddStep(recipes, rows, user, pk).rows, Some(user), pk) == Serializers.HasRow(rows, Some(user), pk)
  {
  }

  /** add_recipe on the store: only the named relation table changes, as AddStep says. */
  method AddRecipe(db: Database.Store, kind: Relation, user: UserId, pk: RecipeId) returns (r: Result<Reply>)
    requires db.Valid()
    modifies db`favorites, db`carts
    ensures db.Valid()
    ensures var t := AddStep(old(db.recipes), old(db.Rows(kind)), user, pk);
            r == t.reply && db.Rows(kind) == t.rows
    ensures kind == Favorites ==> db.carts == old(db.carts)
    ensures kind == ShoppingCart ==> db.favorites == old(db.favorites)
  {
    var t := AddStep(db.recipes, db.Rows(kind), user, pk);
    StepsKeepDistinct(db.recipes, db.Rows(kind), user, pk);
    match kind {
      case Favorites => db.favorites := t.rows;
      case ShoppingCart => db.carts := t.rows;
    }
    r := t.reply;
  }

  /** delete_recipe on the store: only the named relation table changes, as DeleteStep says. */
  method DeleteRecipe(db: Database.Store, kind: Relation, user: UserId, pk: RecipeId) returns (r: Result<Reply>)
    requires db.Valid()
    modifies db`favorites, db`carts
    ensures db.Valid()
    ensures var t := DeleteStep(old(db.recipes), old(db.Rows(kind)), user, pk);
            r == t.reply && db.Rows(kind) == t.rows
    ensures r.Err? ==> r.error == NotFound
    ensures kind == Favorites ==> db.carts == old(db.carts)
    ensures kind == ShoppingCart ==> db.favorites == old(db.favorites)
  {
    var t := DeleteStep(db.recipes, db.Rows(kind), user, pk);
    StepsKeepDistinct(db.recipes, db.Rows(kind), user, pk);
    if pk in db.recipes && Pair(user, pk) in db.Rows(kind) {
      DeletePresentSucceeds(db.recipes, db.Rows(kind), user, pk);
    }
    match kind {
      case Favorites => db.favorites := t.rows;
      case ShoppingCart => db.carts := t.rows;
    }
    r := t.reply;
  }

  /**
   * The favorite action, routed for POST and DELETE only (the router answers
   * any other method with 405 before the action runs): POST adds a favorites
   * row, DELETE deletes one.
   */
  method FavoriteAction(db: Database.Store, m: HttpMethod, user: UserId, pk: RecipeId) returns (r: Result<Reply>)
    requires db.Valid() && (m == POST || m == DELETE)
    modifies db`favorites, db`carts
    ensures db.Valid()
    ensures var t := if m == POST then AddStep(old(db.recipes), old(db.favorites), user, pk)
                     else DeleteStep(old(db.recipes), old(db.favorites), user, pk);
            r == t.reply && db.favorites == t.rows
    ensures db.carts == old(db.carts)
  {
    if m == POST {
      r := AddRecipe(db, Favorites, user, pk);
    } else {
      r := DeleteRecipe(db, Favorites, user, pk);
    }
  }

  /**
   * The shopping_cart action, routed for POST and DELETE only: POST adds a
   * shopping-cart row, DELETE deletes one.
   */
  method ShoppingCartAction(db: Database.Store, m: HttpMethod, user: UserId, pk: RecipeId) returns (r: Result<Reply>)
    requires db.Valid() && (m == POST || m == DELETE)
    modifies db`favorites, db`carts
    ensures db.Valid()
    ensures var t := if m == POST then AddStep(old(db.recipes), old(db.carts), user, pk)
                     else DeleteStep(old(db.recipes), old(db.carts), user, pk);
            r == t.reply && db.carts == t.rows
    ensures db.favorites == old(db.favorites)
  {
    if m == POST {
      r := AddRecipe(db, ShoppingCart, user, pk);
    } else {
      r := DeleteRecipe(db, ShoppingCart, user, pk);
    }
  }

  /** The two serializers of the recipe views. */
  datatype SerializerClass = RecipiesSerializer | AddRecipiesSerializer

  /** get_serializer_class: the read serializer for list and retrieve, the write serializer for every other action. */
  function GetSerializerClass(action: string): (c: SerializerClass)
    ensures c == RecipiesSerializer <==> action in ["list", "retrieve"]
  {
    if action == "list" || action == "retrieve" then RecipiesSerializer else AddRecipiesSerializer
  }

  /** perform_create: the recipe is saved with the requesting user as its author. */
  method PerformCreate(db: Database.Store, requester: UserId, input: Serializers.RecipeInput, now: int)
    returns (r: Result<RecipeId>)
    requires db.Valid() && Serializers.InputValid(db.ingredients, db.tags, input)
    modifies db
    ensures db.Valid()
    ensures old(db.nextRecipeId) in db.recipes && db.recipes[old(db.nextRecipeId)].author == requester
    ensures r.Ok? ==> r.value == old(db.nextRecipeId)
    ensures db.recipes.Keys == old(db.recipes.Keys) + {old(db.nextRecipeId)}
  {
    r := Serializers.Create(db, requester, input, now);
  }

  /** The follow rows whose follower is `user`: the user's `follower` relation. */
  function Following(follows: seq<FollowEdge>, user: UserId): (es: seq<FollowEdge>)
    ensures forall e :: e in es <==> e in follows && e.user == user
    ensures forall e :: multiset(es)[e] == if e.user == user then multiset(follows)[e] else 0
  {
    if follows == [] then []
    else
      assert follows == [follows[0]] + follows[1..];
      (if follows[0].user == user then [follows[0]] else []) + Following(follows[1..], user)
  }

  /** subscriptions: 400 with 'None' when the user follows nobody, otherwise the user's follow rows. */
  function Subscriptions(follows: seq<FollowEdge>, user: UserId): (r: Result<seq<FollowEdge>>)
    ensures r.Err? <==> forall e :: e in follows ==> e.user != user
    ensures r.Err? ==> r.error == ValidationError("None")
    ensures r.Ok? ==> forall e :: e in r.value <==> e in follows && e.user == user
    ensures r.Ok? ==> forall e :: multiset(r.value)[e] == if e.user == user then multiset(follows)[e] else 0
  {
    var mine := Following(follows, user);
    if mine == [] then Err(ValidationError("None"))
    else
      assert mine[0] in follows && mine[0].user == user;
      Ok(mine)
  }

  /**
   * FollowingView.post: the author must be a user (else not found); the
   * follow validation must pass; then the edge is inserted and the reply is
   * 201 with it.
   */
  function FollowStep(users: set<UserId>, follows: seq<FollowEdge>, user: UserId, pk: UserId): (t: Step<FollowEdge>)
    ensures pk !in users ==> t == Step(Err(NotFound), follows)
    ensures t.reply.Ok? <==> pk in users && pk != user && FollowEdge(user, pk) !in follows
    ensures pk in users && pk == user ==> t == Step(Err(ValidationError("You cant follow user.")), follows)
    ensures pk in users && pk != user && FollowEdge(user, pk) in follows ==>
              t == Step(Err(ValidationError("This author is followed.")), follows)
    ensures t.reply.Err? ==> t.rows == follows
    ensures t.reply.Ok? ==>
              && t.reply.value == Subscribed(FollowEdge(user, pk))
              && t.rows == follows + [FollowEdge(user, pk)]
  {
    if pk !in users then Step(Err(NotFound), follows)
    else
      match Serializers.ValidateSubscribe(follows, user, pk)
      case Err(e) => Step(Err(e), follows)
      case Ok(edge) => Step(Ok(Subscribed(edge)), follows + [edge])
  }

  /**
   * FollowingView.delete: the author must be a user and the edge must exist
   * (else not found); the edge is deleted and the reply is 204.
   */
  function UnfollowStep(users: set<UserId>, follows: seq<FollowEdge>, user: UserId, pk: UserId): (t: Step<FollowEdge>)
    ensures t.reply.Ok? <==> pk in users && multiset(follows)[FollowEdge(user, pk)] == 1
    ensures pk !in users || FollowEdge(user, pk) !in follows ==> t == Step(Err(NotFound), follows)
    ensures t.reply.Err? ==> t.rows == follows
    ensures t.reply.Ok? ==>
              && t.reply.value == NoContent
              && multiset(t.rows) == multiset(follows) - multiset{FollowEdge(user, pk)}
              && FollowEdge(user, pk) !in t.rows
  {
    var e := FollowEdge(user, pk);
    if pk !in users || !Contains(follows, e) then Step(Err(NotFound), follows)
    else if multiset(follows)[e] > 1 then Step(Err(MultipleObjectsReturned), follows)
    else
      var rows' := Remove(follows, e);
      assert e !in multiset(rows');
      Step(Ok(NoContent), rows')
  }

  /** Following an author and then unfollowing gives back the follow table. */
  lemma FollowThenUnfollowRestores(users: set<UserId>, follows: seq<FollowEdge>, user: UserId, pk: UserId)
    requires FollowStep(users, follows, user, pk).reply.Ok?
    ensures UnfollowStep(users, FollowStep(users, follows, user, pk).rows, user, pk) == Step(Ok(NoContent), follows)
  {
    var e := FollowEdge(user, pk);
    var after := follows + [e];
    assert FollowStep(users, follows, user, pk).rows == after;
    assert e !in multiset(follows);
    assert multiset(after)[e] == 1 by {
      assert multiset(after) == multiset(follows) + multiset{e};
    }
    assert Contains(after, e);
    RemoveAppended(follows, e);
  }

  /** Following keeps the follow table free of repeats and never creates a self-edge. */
  lemma FollowKeepsTableSound(users: set<UserId>, follows: seq<FollowEdge>, user: UserId, pk: UserId)
    requires Distinct(follows)
    ensures Distinct(FollowStep(users, follows, user, pk).rows)
    ensures Distinct(UnfollowStep(users, follows, user, pk).rows)
    ensures (forall e :: e in follows ==> e.user != e.author) ==>
              forall e :: e in FollowStep(users, follows, user, pk).rows ==> e.user != e.author
  {
    var t := FollowStep(users, follows, user, pk);
    if t.reply.Ok? {
      DistinctAppend(follows, FollowEdge(user, pk));
      assert t.rows == follows + [FollowEdge(user, pk)];
    }
    DistinctRemove(follows, FollowEdge(user, pk));
  }

  /** FollowingView.post on the store: only the follow table changes, as FollowStep says. */
  method Follow(db: Database.Store, user: UserId, pk: UserId) returns (r: Result<Reply>)
    requires db.Valid()
    modifies db`follows
    ensures db.Valid()
    ensures var t := FollowStep(old(db.users), old(db.follows), user, pk);
            r == t.reply && db.follows == t.rows
  {
    var t := FollowStep(db.users, db.follows, user, pk);
    FollowKeepsTableSound(db.users, db.follows, user, pk);
    db.follows := t.rows;
    r := t.reply;
  }

  /** FollowingView.delete on the store: only the follow table changes, as UnfollowStep says. */
  method Unfollow(db: Database.Store, user: UserId, pk: UserId) returns (r: Result<Reply>)
    requires db.Valid()
    modifies db`follows
    ensures db.Valid()
    ensures var t := UnfollowStep(old(db.users), old(db.follows), user, pk);
            r == t.reply && db.follows == t.rows
    ensures r.Err? ==> r.error == NotFound
  {
    var t := UnfollowStep(db.users, db.follows, user, pk);
    FollowKeepsTableSound(db.users, db.follows, user, pk);
    var e := FollowEdge(user, pk);
    if pk in db.users && e in db.follows {
      DistinctCount(db.follows, e);
    }
    db.follows := t.rows;
    r := t.reply;
  }
}
